=== FILE: README.md ===
# Champz-TD game rules in Dafny

A model of the rules of Champz-TD, a 2D tower-defence game written in C# for
Unity. Enemies walk a path of waypoints; the player spends gold to build
towers on build sites, upgrades or sells them, and calls waves of enemies.
Towers shoot projectiles that deal damage and may apply a status effect:
stun, poison, bleeding, freeze, slow, confusion or curse. Killing an enemy
earns gold. An enemy that reaches the end of the path costs a life, and the
game is over when no lives are left.

Every component becomes an immutable value, and every per-frame or
per-click method becomes a pure function from the old value to the new one:

- **Economy**: the GameManager's gold, lives, wave counter and game-over
  flag.
- **Waypoints**: the WaypointFollower.
- **StatusEffects**: the StatusEffectManager's ledger of effect flags,
  timers and parameters, held as a map from each active kind to its
  remaining time.
- **Enemies**: the Enemy together with its manager and follower, including
  every call the manager makes into them. The model keeps two invariants:
  - `Mirrored`: the follower's stun flag and speed, and the enemy's
    confusion flag, always match the ledger.
  - `Resting`: an inactive effect holds neutral parameters.
- **Towers**: TowerData, with its stats, upgrade prices and special effects.
- **TowerCombat**: the Tower's stats, target choice, fire countdown and
  attack-direction sector.
- **Projectiles**: the hit, and the effect roll that follows it.
- **BuildSites**: one build site.
- **Placement**: the TowerPlacement build panel.
- **UpgradePanel**: the TowerUpgradePanel, with its upgrade and its 70%
  sell-back rule.
- **Waves**: the EndlessWaveSpawner, with its difficulty tiers, group sizes,
  call-wave guard, auto-wave countdown and early-call bonus.

Engine inputs become parameters:

- `Time.deltaTime` is `dt`, and `Time.time` is `now`.
- `Random.Range` draws are `pick: nat`, and `Random.value` is `roll`.
- Whether a mover reached its target this frame is `arrived` or `reached`.
- Scene queries become sequences: the enemies a tower sees, the colliders
  near a confused enemy, and the scene's build sites, with a selection held
  as an index.

Floats are modelled as exact reals. `Mathf.RoundToInt` rounds halves to the
even neighbour, and `Mathf.Lerp` clamps its fraction.

Some lemmas speak about several frames or several calls. For them, a few
drivers run the per-frame or per-call functions in sequence, each step with
its own inputs:

- `Economy.PerformAll` runs GameManager calls.
- `Waypoints.Run` runs follower frames.
- `TowerCombat.Frames` runs tower frames.
- `Enemies.TakeHits` runs hits on one enemy.
- `Enemies.ConfusionFrames` runs confusion frames. Each frame has its own
  gold draw, and the draw is 0 once the given draws run out.

The drivers add no behaviour of their own.

## Model

| member | source | states |
|---|---|---|
| Economy.Start | Assets/_Scripts/GameManager.cs:13-61 | A session starts with 1000 gold, 20 lives, wave 0, not over, and in a consistent state |
| Economy.CanAfford | Assets/_Scripts/GameManager.cs:67-70 | A price is affordable exactly when the gold is at least the price |
| Economy.SpendGold | Assets/_Scripts/GameManager.cs:72-76 | Gold falls by exactly the amount, with no affordability check; lives, wave and game-over are untouched |
| Economy.AddGold | Assets/_Scripts/GameManager.cs:78-82 | Gold rises by exactly the amount; nothing else changes |
| Economy.SpendThenAddRestores | Assets/_Scripts/GameManager.cs:72-82 | Spending an amount and adding it back is the identity on the game state |
| Economy.RandomEnemyGold | Assets/_Scripts/GameManager.cs:84-87 | Every kill reward lies in the inclusive range 35 to 50 |
| Economy.ReduceLives | Assets/_Scripts/GameManager.cs:95-107 | No effect once the game is over. Otherwise lives fall by the amount; at zero or less, lives are pinned at 0 and the game ends. Lives stay non-negative, and an over game shows 0 |
| Economy.SetCurrentWave | Assets/_Scripts/GameManager.cs:113-117 | The shown wave becomes the given one; gold, lives and game-over are untouched |
| Economy.GameOverIsFinal | Assets/_Scripts/GameManager.cs:95-134 | After any sequence of manager calls the state stays consistent, and game over is never undone (lives stay 0) |
| Waypoints.Fresh | Assets/_Scripts/WaypointFollower.cs:12-16 | A follower before initialisation is not moving and has full speed |
| Waypoints.Initialize | Assets/_Scripts/WaypointFollower.cs:18-28 | The walk starts at waypoint 0 on the given path, moving; stun and speed are kept |
| Waypoints.SetStunned | Assets/_Scripts/WaypointFollower.cs:83-86 | Only the stun flag changes, and it changes to the given value |
| Waypoints.SetSpeedModifier | Assets/_Scripts/WaypointFollower.cs:88-91 | The stored modifier always lies in [0.1, 2]. It equals the input inside that range and the nearer bound outside it. Nothing else changes |
| Waypoints.StopMoving | Assets/_Scripts/WaypointFollower.cs:93-96 | The follower no longer moves; only the moving flag changes |
| Waypoints.IsMoving | Assets/_Scripts/WaypointFollower.cs:107 | A follower counts as moving exactly when it has been started and no stun or freeze lock holds it |
| Waypoints.Step | Assets/_Scripts/WaypointFollower.cs:30-67 | An inactive follower (stopped, stunned or pathless) does nothing. Past the last waypoint it stops and one life is lost. A null waypoint, or an arrival, advances the index by one. The index never moves by more than one, and a life is lost only when the end is reached |
| Waypoints.ReachedEnd | Assets/_Scripts/WaypointFollower.cs:69-81 | Reaching the end stops the follower and charges exactly one life |
| Waypoints.StoppedStaysStopped | Assets/_Scripts/WaypointFollower.cs:30-36 | A stopped follower never moves again and costs nothing more, whatever frames follow |
| Waypoints.AtMostOneLifeLost | Assets/_Scripts/WaypointFollower.cs:30-81 | Over any run of frames, an enemy costs the player no life or exactly one, and never walks backwards |
| Waypoints.UnhinderedWalkPassesLastWaypoint | Assets/_Scripts/WaypointFollower.cs:38-67 | An unhindered walk arriving every frame has passed its last waypoint after path-length frames, still walking on the same path and at no cost |
| Waypoints.UnhinderedWalkReachesEnd | Assets/_Scripts/WaypointFollower.cs:38-67 | An unhindered walk that arrives every frame is still walking at no cost after path-length frames, and has stopped after exactly path-length + 1 frames, having charged exactly one life |
| StatusEffects.Fresh | Assets/_Scripts/StatusEffectManager.cs:45-77 | A new manager has no active effect, all timers at zero, multiplier 1, speed factor 1 and no movement lock |
| StatusEffects.IsStunned | Assets/_Scripts/StatusEffectManager.cs:381 | Movement is locked exactly while a stun or a freeze is active |
| StatusEffects.DamageMultiplier | Assets/_Scripts/StatusEffectManager.cs:383 | The damage multiplier is the one the curse set |
| StatusEffects.SpeedFactor | Assets/_Scripts/StatusEffectManager.cs:370-379 | The speed factor handed to the follower combines the slow, curse and freeze factors |
| StatusEffects.SpeedFactorIsProduct | Assets/_Scripts/StatusEffectManager.cs:370-379 | The combined speed factor is slow × curse-slow × freeze-slow |
| StatusEffects.DotDamage | Assets/_Scripts/StatusEffectManager.cs:174-180 | One damage-over-time tick deals half a second of the rate of each active poison or bleeding, and nothing from inactive ones; with both active it deals half a second of their summed rates |
| StatusEffects.RestingMultiplier | Assets/_Scripts/StatusEffectManager.cs:383 | Without a curse, the damage multiplier is exactly 1 |
| StatusEffects.RestingSpeedFactor | Assets/_Scripts/StatusEffectManager.cs:370-379 | With no slow, curse or freeze active, the speed factor is exactly 1 |
| StatusEffects.ApplyStun | Assets/_Scripts/StatusEffectManager.cs:246-253 | Stun becomes active and its timer is overwritten with the duration, even a shorter one. Movement is locked; every other kind is untouched |
| StatusEffects.ApplyPoison | Assets/_Scripts/StatusEffectManager.cs:255-260 | Poison becomes active. Its timer is the larger of the remaining time and the new duration, and its rate is the latest one. Other kinds are untouched |
| StatusEffects.ApplyBleeding | Assets/_Scripts/StatusEffectManager.cs:262-267 | Like poison: the longer duration and the latest rate; other kinds are untouched |
| StatusEffects.ApplyFreeze | Assets/_Scripts/StatusEffectManager.cs:269-278 | Freeze becomes active with its timer overwritten. Movement is locked and the freeze factor is 1 - slowAmount. Other kinds are untouched |
| StatusEffects.ApplySlow | Assets/_Scripts/StatusEffectManager.cs:280-286 | Slow keeps the longer duration and takes factor 1 - slowAmount; other kinds are untouched |
| StatusEffects.ApplyConfusion | Assets/_Scripts/StatusEffectManager.cs:288-295 | Confusion becomes active with its timer overwritten; other kinds are untouched |
| StatusEffects.ApplyCurse | Assets/_Scripts/StatusEffectManager.cs:297-306 | Curse becomes active with its timer overwritten. Its slow factor is 1 - slowAmount and the damage multiplier is 1 + amplification. Other kinds are untouched |
| StatusEffects.Remove | Assets/_Scripts/StatusEffectManager.cs:310-366 | The kind becomes inactive with timer 0. Its own parameters return to neutral: rate 0 for poison and bleeding, factor 1 for slow, curse and freeze, and multiplier 1 for the curse. Every other kind keeps its flag, timer and parameters, and the next tick time is kept |
| StatusEffects.RemovingOneLock | Assets/_Scripts/StatusEffectManager.cs:310-342 | After removing stun, movement is locked exactly when a freeze is active, and vice versa |
| StatusEffects.RemovalResetsSpeedFactor | Assets/_Scripts/StatusEffectManager.cs:333-366 | Removing slow, curse or freeze leaves the speed factor at the product of the other two factors |
| StatusEffects.PoisonRefreshExample | Assets/_Scripts/StatusEffectManager.cs:255-260 | Poison for 3 s at rate 5, then for 5 s at rate 8, gives one poison lasting 5 s at rate 8 |
| Enemies.Create | Assets/_Scripts/Enemy.cs:31-45 | A new enemy is alive at full health, with no effects, and its components agree with its ledger |
| Enemies.SetMaxHealth | Assets/_Scripts/Enemy.cs:188-193 | Both the maximum and the current health become the given value; nothing else changes |
| Enemies.HealthPercentage | Assets/_Scripts/Enemy.cs:195-198 | The percentage times the maximum is the current health, and it lies in (0, 1] when health is positive and at most the maximum |
| Enemies.Die | Assets/_Scripts/Enemy.cs:91-118 | Death happens once. A dead enemy is untouched; a live one becomes dead and pays one kill reward |
| Enemies.TakeDamage | Assets/_Scripts/Enemy.cs:65-89 | A dead enemy ignores damage. Otherwise health falls by damage × the damage multiplier, without clamping. The enemy dies exactly when health reaches 0 or less, and gold rises exactly on that transition |
| Enemies.DeadIgnoresHits | Assets/_Scripts/Enemy.cs:65-67 | Any number of further hits on a dead enemy changes nothing |
| Enemies.RewardPaidOnce | Assets/_Scripts/Enemy.cs:91-106 | Over any sequence of hits, gold grows either by nothing, with no death, or by one reward of 35 to 50 exactly when the enemy dies. Lives and wave are untouched |
| Enemies.OverkillLeavesNegativeHealth | Assets/_Scripts/Enemy.cs:75-88 | Health is not clamped: 80 damage on a 50-health enemy leaves -30 |
| Enemies.PushSpeed | Assets/_Scripts/StatusEffectManager.cs:370-379 | The follower's speed becomes the clamped product of the ledger's factors; nothing else changes |
| Enemies.ApplyEffect | Assets/_Scripts/StatusEffectManager.cs:218-306 | Dispatch by kind. The kind becomes active; poison, bleeding and slow keep the longer duration, the others overwrite it. Every other kind is untouched. A curse sets the multiplier to 1 + amplification; any other kind leaves it alone. Health and the walk are untouched, and the components stay in step with the ledger |
| Enemies.RemoveEffect | Assets/_Scripts/StatusEffectManager.cs:310-366 | The kind ends with timer 0, and every other kind is untouched. A lock is released on the follower only if the other lock is not held. The speed is re-pushed and the confusion flag cleared, so the components stay in step |
| Enemies.TickKind | Assets/_Scripts/StatusEffectManager.cs:97-105 | An active effect's timer falls by dt. The effect ends exactly when the timer reaches 0 or less, and an inactive effect is untouched |
| Enemies.TickKindsEffect | Assets/_Scripts/StatusEffectManager.cs:95-166 | Ticking a list of distinct kinds treats each listed kind as if ticked alone and leaves unlisted kinds untouched |
| Enemies.TimedKindsCoverAll | Assets/_Scripts/StatusEffectManager.cs:95-166 | The update order visits each of the seven kinds exactly once |
| Enemies.UpdateEffectTimers | Assets/_Scripts/StatusEffectManager.cs:95-166 | For every kind: still active exactly when it was active and its timer minus dt is positive. A surviving kind has its timer reduced by dt; an ended one has timer 0. The invariants are kept |
| Enemies.ExpiredFreezeReleases | Assets/_Scripts/StatusEffectManager.cs:127-135 | A 0.1 s freeze followed by a 0.2 s frame leaves the enemy unlocked and its follower free to move |
| Enemies.ApplyDotDamage | Assets/_Scripts/StatusEffectManager.cs:168-187 | Nothing before the next tick. At the tick, the next one is scheduled 0.5 s later, and positive poison-plus-bleeding damage is dealt through the damage multiplier. No effect state changes |
| Enemies.ManagerUpdate | Assets/_Scripts/StatusEffectManager.cs:86-93 | Nothing on a dead enemy. Timers run before damage-over-time, so a poison ending this frame deals nothing. The invariants are kept |
| Enemies.ExpiredPoisonDealsNothing | Assets/_Scripts/StatusEffectManager.cs:86-93 | An expiring poison, without bleeding, costs the enemy no health and the player no gold change in that frame |
| Enemies.ClearKinds | Assets/_Scripts/StatusEffectManager.cs:385-394 | Every listed kind ends with timer 0, and unlisted kinds keep their flags |
| Enemies.ClearAllEffects | Assets/_Scripts/StatusEffectManager.cs:385-394 | No effect is left active and all timers are 0. The multiplier and speed factor return to 1, and the follower is unlocked at full speed |
| Enemies.CurseAmplifiesDamage | Assets/_Scripts/StatusEffectManager.cs:297-302 | While cursed with amplification a, a hit of d costs d·(1+a) health; the Priest's curse turns 10 damage into 15 |
| Enemies.SpeedFactorsMultiply | Assets/_Scripts/StatusEffectManager.cs:370-379 | Slow 0.5 with curse slow 0.3 gives speed factor 0.35 on the follower |
| Enemies.FirstEligible | Assets/_Scripts/Enemy.cs:139-150 | Returns the first collider that is another live, enemy-tagged enemy, or none if there is no such collider |
| Enemies.AttackNearbyEnemies | Assets/_Scripts/Enemy.cs:135-151 | At most one collider changes, and it is an eligible one. The first eligible enemy receives a full `TakeDamage` of 10: it loses 10 × its multiplier, dies at 0 or below, and the kill reward reaches the gold. With none eligible, nothing changes |
| Enemies.ConfusionUpdate | Assets/_Scripts/Enemy.cs:47-60 | Only a live, confused enemy acts. Its attack timer falls by dt; at 0 or below it attacks once and the timer restarts at the 1 s cooldown. No other field changes |
| Enemies.NoAttackWhileCoolingDown | Assets/_Scripts/Enemy.cs:47-60 | While the attack timer outlasts a run of forward frames, the enemy attacks in none of them: colliders and gold are untouched and the timer has fallen by the time that passed |
| Enemies.OneAttackPerCooldown | Assets/_Scripts/Enemy.cs:47-60 | Over any forward frames lasting less than the 1 s cooldown in total, a confused enemy attacks at most once, whatever its timer held at the start |
| Towers.Default | Assets/_Scripts/TowerData.cs:21-46 | The default tower is level 1 of 5 with range 3, damage 10 and fire rate 1. It can upgrade for 50, has no ability yet, and is sane |
| Towers.LevelStatStep | Assets/_Scripts/TowerData.cs:48-61 | One more level adds exactly one per-level step to a stat |
| Towers.CurrentRange | Assets/_Scripts/TowerData.cs:48-51 | At level 1 the range is the base range, and it never falls below it for a sane configuration |
| Towers.CurrentDamage | Assets/_Scripts/TowerData.cs:53-56 | At level 1 the damage is the base damage, and it never falls below it for a sane configuration |
| Towers.CurrentFireRate | Assets/_Scripts/TowerData.cs:58-61 | At level 1 the fire rate is the base rate, at least the base and positive for a sane configuration |
| Towers.CanUpgrade | Assets/_Scripts/TowerData.cs:74-77 | A tower can level up exactly while it is below its maximum level |
| Towers.UpgradeCost | Assets/_Scripts/TowerData.cs:63-72 | 0 at the cap. Otherwise the table entry for the next level when the table has one, and 999 when it does not |
| Towers.UpgradeCostIsListed | Assets/_Scripts/TowerData.cs:63-72 | Every price is 0, 999 or an entry of the table |
| Towers.Upgrade | Assets/_Scripts/TowerData.cs:79-94 | Below the cap the level rises by exactly one; at the cap nothing changes. Only the level changes, it never passes the cap, and sanity is kept |
| Towers.UpgradeAddsOneStep | Assets/_Scripts/TowerData.cs:79-94 | An upgrade adds exactly one per-level step to range, damage and fire rate |
| Towers.UpgradesStopAtCap | Assets/_Scripts/TowerData.cs:74-94 | n upgrades give level min(level + n, cap), and nothing else changes |
| Towers.HasSpecialAbility | Assets/_Scripts/TowerData.cs:96-99 | The special ability is unlocked exactly from the unlock level on |
| Towers.SpecialEffect | Assets/_Scripts/TowerData.cs:101-132 | No effect below the unlock level or for the Warrior. Otherwise a real effect with positive duration. The Alchemist's effect is freeze exactly from level 4 |
| Towers.SpecialEffectBySignature | Assets/_Scripts/TowerData.cs:101-132 | An unlocked tower's effect is its type's own kind, and two different types never share a kind at the same level |
| Towers.SpecialEffectValues | Assets/_Scripts/TowerData.cs:106-131 | The exact effect per type: stun 1.5 s; confusion 3 s; bleeding 4 s at 5; curse 3 s, +50%, 30% slow; freeze 2 s, 50% slow; poison 5 s at 8 |
| Towers.DefaultProgression | Assets/_Scripts/TowerData.cs:21-99 | With the defaults the ability unlocks on the second upgrade, and the prices of levels 2 to 5 are 50, 100, 150 and 200, then 0 |
| TowerCombat.ApplyStats | Assets/_Scripts/Tower.cs:81-88 | The tower's range, fire rate and damage become its data's current values; its data and countdown are kept |
| TowerCombat.Build | Assets/_Scripts/Tower.cs:40-51 | A new tower's stats agree with its data, its countdown is 0, and a sane tower fires at a positive rate |
| TowerCombat.UpgradeTower | Assets/_Scripts/TowerData.cs:79-94 | The data upgrades and the stats are re-applied. Below the cap each stat grows by one per-level step, and at the cap nothing changes |
| TowerCombat.ClosestUpTo | Assets/_Scripts/Tower.cs:90-112 | The reference choice: a targetable candidate with no nearer targetable one, strictly nearer than every earlier targetable one; none exactly when nothing is targetable |
| TowerCombat.ClosestIsUnique | Assets/_Scripts/Tower.cs:90-112 | Any index meeting the closest-target description is the reference choice |
| TowerCombat.FindClosestEnemy | Assets/_Scripts/Tower.cs:90-112 | The one-pass loop returns the nearest live enemy in range, the earliest on ties, and none exactly when there is no target |
| TowerCombat.TieGoesToEarliest | Assets/_Scripts/Tower.cs:99 | Of two targetable candidates at the same distance, the later one is never chosen |
| TowerCombat.Fire | Assets/_Scripts/Tower.cs:62-78 | The tower shoots exactly when it has a target and its countdown is at 0 or below. It then reloads to 1/fireRate; the countdown always falls by dt |
| TowerCombat.NoShotWhileReloading | Assets/_Scripts/Tower.cs:68-78 | While the countdown outlasts the frames, no shot is fired whatever the targets, and the countdown falls by dt per frame |
| TowerCombat.ShootsWhenReady | Assets/_Scripts/Tower.cs:68-78 | A ready tower with a target shoots once and reloads to 1/fireRate - dt |
| TowerCombat.Sector | Assets/_Scripts/Tower.cs:153-168 | The attack animation is chosen by the arc the angle to the target falls in: right, up, left or down |
| TowerCombat.SectorArcs | Assets/_Scripts/Tower.cs:153-168 | Each attack direction is exactly one arc: right [-45, 45), up [45, 135), left [135, ∞) or below -135, down [-135, -45) |
| TowerCombat.QuarterTurn | Assets/_Scripts/Tower.cs:153-168 | A quarter turn anticlockwise moves right to up, up to left and down to right |
| Projectiles.RolledEffect | Assets/_Scripts/Projectile.cs:65-71 | Given the firing tower as it stands when the projectile lands, an effect is applied exactly when that tower still exists, its ability is unlocked, the roll is at most its chance, and it has an effect; that effect is the tower's |
| Projectiles.HitTarget | Assets/_Scripts/Projectile.cs:56-84 | Only a live enemy is hit. It loses damage × its pre-hit multiplier once, and then takes the effect rolled from the firing tower's current data, if any. The enemy's invariants are kept |
| Projectiles.Update | Assets/_Scripts/Projectile.cs:23-54 | A missing or dead target destroys the projectile with no effect. Reaching the target hits it and destroys the projectile; otherwise nothing changes |
| Projectiles.UpgradeInFlightUnlocksEffect | Assets/_Scripts/Projectile.cs:56-71 | A tower upgraded to its unlock level while its projectile is in flight applies its effect on a successful roll, though it could not when it fired |
| Projectiles.SoldTowerAppliesNoEffect | Assets/_Scripts/Projectile.cs:65-71 | A projectile whose tower was sold in flight deals its damage and applies no effect, whatever the roll |
| Projectiles.CurseAppliesAfterDamage | Assets/_Scripts/Projectile.cs:56-84 | On an uncursed enemy the hit costs exactly the projectile's damage, even when that hit applies a curse |
| Projectiles.PriestCurseAmplifiesNextHit | Assets/_Scripts/Projectile.cs:56-84 | After a successful Priest roll, the next projectile from any tower costs the enemy 1.5 × its damage |
| BuildSites.Empty | Assets/_Scripts/BuildSite.cs:9-10 | A new site is free and holds no tower |
| BuildSites.PlaceTower | Assets/_Scripts/BuildSite.cs:21-25 | The site is occupied and holds the given tower |
| BuildSites.RemoveTower | Assets/_Scripts/BuildSite.cs:29-36 | The site is free again with no tower, as when new |
| BuildSites.RemoveIsIdempotent | Assets/_Scripts/BuildSite.cs:21-36 | Removing twice is removing once, and placing then removing gives a free site |
| BuildSites.PlaceOverwrites | Assets/_Scripts/BuildSite.cs:21-25 | The site itself does not guard against double placement: a second tower replaces the first |
| Placement.Cost | Assets/_Scripts/TowerPlacement.cs:20-26 | Each tower type has a price between 100 and 180 |
| Placement.Start | Assets/_Scripts/TowerPlacement.cs:60-66 | The panel starts closed with no selection and its buttons untouched, consistent with any sites |
| Placement.OpenPanel | Assets/_Scripts/TowerPlacement.cs:143-173 | Opening does nothing if the panel is already open or has no panel object. Otherwise it opens, keeps the selection, and enables exactly the buttons the current gold affords |
| Placement.ClosePanel | Assets/_Scripts/TowerPlacement.cs:175-197 | Closing does nothing on a closed panel; otherwise it closes and drops the selection. The buttons keep their state |
| Placement.CloseIsIdempotent | Assets/_Scripts/TowerPlacement.cs:175-197 | Closing twice is closing once |
| Placement.HandleTouch | Assets/_Scripts/TowerPlacement.cs:119-141 | A free site becomes the selection and opens the panel at the current gold. An occupied site, or a tagged collider without a site, is ignored. A touch elsewhere closes the panel. Consistency is kept |
| Placement.PlaceTower | Assets/_Scripts/TowerPlacement.cs:226-256 | Nothing without a selection, a prefab or enough gold. Otherwise the price is paid, a new tower stands on the selected site, other sites are unchanged, and the panel closes. Consistency is kept |
| Placement.PurchaseExactlyWhenEnabled | Assets/_Scripts/TowerPlacement.cs:226-277 | A click buys exactly when there is a selection and a prefab, the button was enabled for the gold at opening, and the gold still covers the price now. The gold then falls by exactly the price, and the site becomes occupied |
| Placement.CostTextColor | Assets/_Scripts/TowerPlacement.cs:313-328 | A price is shown white exactly when the gold covers it, and red otherwise |
| Placement.ButtonsAgreeAtOpening | Assets/_Scripts/TowerPlacement.cs:258-328 | When the panel opens, a button is enabled exactly when its price is white and exactly when the manager says the price is affordable |
| Placement.StaleButtonAfterIncome | Assets/_Scripts/TowerPlacement.cs:104-117 | Gold earned after opening turns a price white while its button stays disabled, and a click on it buys nothing |
| Placement.StaleButtonAfterSpending | Assets/_Scripts/TowerPlacement.cs:226-238 | Gold spent after opening turns a price red while its button stays enabled; the click reaches `PlaceTower`, whose own check refuses it |
| Placement.NeverBuildsOnOccupiedSite | Assets/_Scripts/TowerPlacement.cs:119-141 | With a panel object, a purchase only ever builds on a free site |
| Placement.PressButton | Assets/_Scripts/TowerPlacement.cs:199-217 | A click on a disabled button changes nothing; on an enabled one it is exactly `PlaceTower`. Consistency is kept |
| UpgradePanel.BaseCost | Assets/_Scripts/TowerUpgradePanel.cs:203-216 | Every assumed purchase price is positive |
| UpgradePanel.BaseCostMatchesPlacement | Assets/_Scripts/TowerUpgradePanel.cs:203-216 | The assumed purchase price of each type equals the build panel's default price |
| UpgradePanel.UpgradesPaid | Assets/_Scripts/TowerUpgradePanel.cs:194-198 | No levels gained costs nothing, and non-negative prices give a non-negative total |
| UpgradePanel.UpgradesPaidWholeTable | Assets/_Scripts/TowerUpgradePanel.cs:194-198 | Levels past the end of the price table add nothing to the total |
| UpgradePanel.TotalInvestment | Assets/_Scripts/TowerUpgradePanel.cs:187-198 | The loop totals the base price plus the table prices of the levels gained; a level-1 tower totals its base price |
| UpgradePanel.SellValue | Assets/_Scripts/TowerUpgradePanel.cs:187-201 | The refund is within half a gold of 70% of the investment |
| UpgradePanel.SellAtLevelOne | Assets/_Scripts/TowerUpgradePanel.cs:200-214 | A level-1 tower refunds 70, 84, 105, 126, 98 or 112 by type |
| UpgradePanel.SellRefundsLess | Assets/_Scripts/TowerUpgradePanel.cs:187-201 | Selling never returns the whole investment: a tower with an investment of at least 2 gold refunds strictly less |
| UpgradePanel.UpgradeAddsPriceToInvestment | Assets/_Scripts/TowerUpgradePanel.cs:194-198 | A table-priced upgrade adds exactly its price to the investment |
| UpgradePanel.FallbackPriceIsNotRefunded | Assets/_Scripts/TowerUpgradePanel.cs:194-198 | An upgrade charged at the 999 fallback adds nothing to the investment, so it is never refunded |
| UpgradePanel.Start | Assets/_Scripts/TowerUpgradePanel.cs:37-43 | The panel starts closed with no selection; the upgrade button keeps its interactable scene state |
| UpgradePanel.HandleTouch | Assets/_Scripts/TowerUpgradePanel.cs:45-111 | An open panel ignores touches. A closed one opens on an occupied site holding a tower, with the upgrade button enabled exactly when that tower can level up and the current gold pays for it; any other touch changes nothing |
| UpgradePanel.Close | Assets/_Scripts/TowerUpgradePanel.cs:113-135 | Closing does nothing on a closed panel; otherwise it closes and drops the selection. The upgrade button keeps its flag |
| UpgradePanel.UpgradeTower | Assets/_Scripts/TowerUpgradePanel.cs:230-252 | Nothing without a selected tower, at the cap, or without the gold now. Otherwise the price is paid, the tower is upgraded in place, other sites are untouched, and the button is refreshed for the new level and the gold left |
| UpgradePanel.UpdatePanelInfo | Assets/_Scripts/TowerUpgradePanel.cs:137-185 | With a selected tower, the upgrade button is enabled exactly when the tower can level up and the gold pays the price; the panel stays open on the same selection |
| UpgradePanel.PressUpgrade | Assets/_Scripts/TowerUpgradePanel.cs:218-221 | A click on a disabled upgrade button changes nothing; on an enabled one it is exactly `UpgradeTower` |
| UpgradePanel.UpgradeExactlyWhenEnabled | Assets/_Scripts/TowerUpgradePanel.cs:157-252 | A click upgrades exactly when the last refresh left the button enabled and the tower and the gold allow it now. The level then rises by one and the gold falls by exactly the price |
| UpgradePanel.StaleUpgradeButton | Assets/_Scripts/TowerUpgradePanel.cs:157-167 | Gold earned while the panel is open leaves a disabled upgrade button disabled, so a click upgrades nothing although the player could now pay |
| UpgradePanel.SellTower | Assets/_Scripts/TowerUpgradePanel.cs:254-267 | With a selection, the sell value is paid, the site is freed, other sites are untouched, and the panel closes; without one, nothing changes |
| UpgradePanel.BuyThenSell | Assets/_Scripts/TowerUpgradePanel.cs:254-267 | Buying a tower and selling it straight back frees the site and leaves the player short by the price less its 70% refund |
| Waves.DefaultConfig | Assets/_Scripts/EndlessWaveSpawner.cs:11-38 | The shipped settings are sound: positive divisors and ordered bounds |
| Waves.DifficultyTier | Assets/_Scripts/EndlessWaveSpawner.cs:138 | Waves in the first block of wavesPerHealthIncrease are tier 0 |
| Waves.HealthMultiplier | Assets/_Scripts/EndlessWaveSpawner.cs:138-139 | Waves in the first block get multiplier 1 |
| Waves.HealthMultiplierSteps | Assets/_Scripts/EndlessWaveSpawner.cs:138-139 | The multiplier is constant within a block, never below 1, and never falls from one wave to a later one |
| Waves.DefaultHealthMultiplier | Assets/_Scripts/EndlessWaveSpawner.cs:138-139 | With the defaults, wave 5 has multiplier 1 and wave 6 has 1.2 |
| Waves.ExtraEnemies | Assets/_Scripts/EndlessWaveSpawner.cs:141 | Waves in the first block add no extra enemies |
| Waves.ExtraEnemiesMonotone | Assets/_Scripts/EndlessWaveSpawner.cs:141 | The extra enemies are never negative and never fall from one wave to a later one |
| Waves.GroupSize | Assets/_Scripts/EndlessWaveSpawner.cs:146 | A group has between min + extra and max + extra enemies, both inclusive |
| Waves.WaveSize | Assets/_Scripts/EndlessWaveSpawner.cs:144-152 | A wave spawns at least its first group's enemies and none at all when every drawn group size is zero or negative, since the spawning loop then never runs |
| Waves.WaveSizeBounds | Assets/_Scripts/EndlessWaveSpawner.cs:144-152 | A wave of n groups spawns between n × the smallest and n × the largest group size, a negative bound counting as no enemies |
| Waves.SpawnEnemy | Assets/_Scripts/EndlessWaveSpawner.cs:169-196 | No enemy without prefabs or waypoints. Otherwise the enemy has 100 × multiplier as maximum and current health, is alive and valid, and walks the path from waypoint 0 |
| Waves.Start | Assets/_Scripts/EndlessWaveSpawner.cs:43-47 | Before the first wave: wave 0, a wave can be called, and no countdown runs |
| Waves.CanCallWave | Assets/_Scripts/EndlessWaveSpawner.cs:200 | A wave can be called exactly while calling is enabled and no wave is spawning |
| Waves.CountdownLeft | Assets/_Scripts/EndlessWaveSpawner.cs:102-105 | The share of the countdown left: timer / delay for a non-zero delay, so positive exactly for a positive delay; a zero delay gives the full share that the infinite float quotient clamps to |
| Waves.EarlyBonus | Assets/_Scripts/EndlessWaveSpawner.cs:99-117 | A bonus exists exactly for a manual call while the countdown runs with time left and bonuses are enabled, whatever the delay. It lies between the minimum and maximum bonus |
| Waves.EarlierCallEarnsMore | Assets/_Scripts/EndlessWaveSpawner.cs:105 | Calling with more of the countdown left never earns a smaller bonus |
| Waves.BeginSpawn | Assets/_Scripts/EndlessWaveSpawner.cs:131-133 | Spawning starts: no further call is possible and the countdown stops |
| Waves.CallNextWave | Assets/_Scripts/EndlessWaveSpawner.cs:95-127 | Nothing while a wave cannot be called. Otherwise any early bonus is paid, the wave number rises by one and is shown, and spawning starts. The flag invariant is kept |
| Waves.FinishSpawn | Assets/_Scripts/EndlessWaveSpawner.cs:161-166 | When spawning ends, a wave can be called again and the countdown restarts at the full delay |
| Waves.Update | Assets/_Scripts/EndlessWaveSpawner.cs:81-93 | Only a running countdown between waves changes. At 0 or below the next wave is called automatically, without a bonus; gold never changes. The flag invariant is kept |
| Waves.NoDelayNoBonus | Assets/_Scripts/EndlessWaveSpawner.cs:81-105 | With an auto-wave delay of zero or less, the countdown after a wave starts already run down: an early call earns nothing, and the next frame calls the next wave without paying gold |
| Waves.OneWaveAtATime | Assets/_Scripts/EndlessWaveSpawner.cs:81-127 | While a wave spawns, neither the button nor the countdown can start another |
| Waves.DefaultBonuses | Assets/_Scripts/EndlessWaveSpawner.cs:34-38 | With the defaults, an immediate call earns 30, a call at half the countdown earns 20, and an automatic call earns nothing |

## Left out

- Rendering, animation, tweens, audio, floating texts, health bars, sprite tints and UI text are presentational and carry no game rule. This covers `UpdateAnimations` (apart from the direction choice `TowerCombat.Sector` models), `UpdateVisualEffects`, `UpdateHealthBar`, `UpdateGoldDisplay` and the Priest healing aura, which only pulses neighbouring towers.
- Movement geometry is abstracted into a per-frame `arrived`/`reached` input: `Vector2.MoveTowards`, distances, rotation and `GetMovementDirection`.
- Scene queries and raycasts become explicit lists, and so does the camera. Whether a click landed on the UI is decided by the caller.
- Object lifetime is not modelled: `Destroy`, `Instantiate`, and the delayed destroy after the death animation with its `StopMoving` and collider disabling. A dead enemy stays a value with `dead` set; a destroyed projectile is reported by a flag.
- The waits of the spawning coroutine (`waveDelay`, `spawnInterval`, `groupDelay`) and the frames that interleave with them are left out. A wave is modelled by its start, its group sizes, one `SpawnEnemy` per enemy, and its finish.
- Null-component and null-singleton branches are left out; the model assumes every sibling component and the GameManager exist. A tower without TowerData, which the upgrade panel would value at 0, is left out too.
- The interactable state the scene gives the tower buttons and the upgrade button is taken to be Unity's default, interactable. The buttons keep it until the first opening, and for ever on a build panel without a panel object, which never opens.
- Victory, scene loading, `Time.timeScale` and the GameManager's singleton bookkeeping are not game rules.
- Float rounding is not modelled: every float is an exact real, so `0.7f`, `1.2f` and `0.2f` are exact decimals.
- `OnDestroy` listener removal in the wave spawner is left out; it has no effect on game state.
- The build panel's prices are its inspector defaults rather than per-scene settings. The upgrade panel hard-codes the same values.
- TowerCombat.Fire: requires a positive fire rate. A zero rate makes the source's `1f / fireRate` infinite, and a sane tower never has one.
- TowerCombat.Frames: requires a positive fire rate, for the same reason as `Fire`.
- Enemies.HealthPercentage: requires a non-zero maximum health, since the source divides by it.
- Waves.HealthMultiplier: requires a positive `wavesPerHealthIncrease`. The source divides by it and would throw on zero.
- Waves.ExtraEnemies: requires a positive `wavesPerEnemyIncrease`, for the same reason.
- Waves.FinishSpawn: requires a spawn in progress, which is the only way the coroutine's end is reached.

=== FILE: build_sites.dfy ===
/** BuildSite: a marker where one tower may stand. The site records whether
    it is occupied and which tower it holds; the tower is any value. */
module BuildSites {
  import opened Options

  datatype Site<T> = Site(occupied: bool, placed: Option<T>)

  /** A site as the scene creates it: free, with no tower. */
  function Empty<T>(): (s: Site<T>)
    ensures !IsOccupied(s) && PlacedTower(s).None?
  {
    Site(false, None)
  }

  predicate IsOccupied<T>(s: Site<T>)
  {
    s.occupied
  }

  function PlacedTower<T>(s: Site<T>): Option<T>
  {
    s.placed
  }

  /** Records `tower` on the site. Whatever stood there before is forgotten:
      the site does not check that it was free. */
  function PlaceTower<T>(s: Site<T>, tower: T): (r: Site<T>)
    ensures IsOccupied(r) && PlacedTower(r) == Some(tower)
  {
    Site(true, Some(tower))
  }

  /** Frees the site (the tower object itself is destroyed by the engine). */
  function RemoveTower<T>(s: Site<T>): (r: Site<T>)
    ensures !IsOccupied(r) && PlacedTower(r).None?
    ensures r == Empty()
  {
    Site(false, None)
  }

  /** Removing twice is removing once, and placing then removing gives back a
      free site whatever the site held before. */
  lemma RemoveIsIdempotent<T>(s: Site<T>, tower: T)
    ensures RemoveTower(RemoveTower(s)) == RemoveTower(s)
    ensures RemoveTower(PlaceTower(s, tower)) == Empty()
    ensures PlacedTower(PlaceTower(RemoveTower(s), tower)) == Some(tower)
  {
  }

  /** Placing on an occupied site replaces the tower it held. */
  lemma PlaceOverwrites<T>(s: Site<T>, first: T, second: T)
    ensures PlaceTower(PlaceTower(s, first), second) == PlaceTower(s, second)
  {
  }
}

=== FILE: economy.dfy ===
/** The GameManager singleton: the player's gold, lives, the wave shown to the
    player, and the one-way game-over transition. The singleton becomes an
    explicit `GameState` value that every rule taking or paying gold threads
    through. */
module Economy {
  import opened Numeric

  const StartingGold: int := 1000
  const StartingLives: int := 20
  const MinGoldPerKill: int := 35
  const MaxGoldPerKill: int := 50

  datatype GameState = GameState(gold: int, lives: int, wave: int, gameOver: bool)

  /** The state at the start of a session. */
  function Start(): (g: GameState)
    ensures g.gold == StartingGold && g.lives == StartingLives
    ensures g.wave == 0 && !g.gameOver
    ensures Consistent(g)
  {
    GameState(StartingGold, StartingLives, 0, false)
  }

  /** Lives never go below zero, and a finished game shows zero lives. */
  predicate Consistent(g: GameState)
  {
    g.lives >= 0 && (g.gameOver ==> g.lives == 0)
  }

  predicate CanAfford(g: GameState, cost: int)
  {
    g.gold >= cost
  }

  /** Pays `amount`; there is no affordability check here, callers make it. */
  function SpendGold(g: GameState, amount: int): (r: GameState)
    ensures r.gold + amount == g.gold
    ensures r.lives == g.lives && r.wave == g.wave && r.gameOver == g.gameOver
  {
    g.(gold := g.gold - amount)
  }

  function AddGold(g: GameState, amount: int): (r: GameState)
    ensures r.gold == g.gold + amount
    ensures r.lives == g.lives && r.wave == g.wave && r.gameOver == g.gameOver
  {
    g.(gold := g.gold + amount)
  }

  /** Spending an amount and receiving it back leaves the state as it was. */
  lemma SpendThenAddRestores(g: GameState, amount: int)
    ensures AddGold(SpendGold(g, amount), amount) == g
  {
  }

  /** The reward for a kill, `Random.Range(min, max + 1)` with the draw passed in. */
  function RandomEnemyGold(pick: nat): (r: int)
    ensures MinGoldPerKill <= r <= MaxGoldPerKill
  {
    RandomRangeInt(MinGoldPerKill, MaxGoldPerKill + 1, pick)
  }

  /** Loses `amount` lives unless the game is already over; reaching zero or
      less pins lives at zero and ends the game. */
  function ReduceLives(g: GameState, amount: int): (r: GameState)
    ensures g.gameOver ==> r == g
    ensures !g.gameOver && g.lives - amount > 0 ==> r.lives == g.lives - amount && !r.gameOver
    ensures !g.gameOver && g.lives - amount <= 0 ==> r.lives == 0 && r.gameOver
    ensures r.gold == g.gold && r.wave == g.wave
    ensures Consistent(g) ==> Consistent(r)
  {
    if g.gameOver then g
    else
      var lives := g.lives - amount;
      if lives <= 0 then g.(lives := 0, gameOver := true)
      else g.(lives := lives)
  }

  function SetCurrentWave(g: GameState, wave: int): (r: GameState)
    ensures r.wave == wave
    ensures r.gold == g.gold && r.lives == g.lives && r.gameOver == g.gameOver
  {
    g.(wave := wave)
  }

  /** The public entry points of the manager, for reasoning about any sequence
      of calls. */
  datatype Call = Spend(amount: int) | Add(amount: int) | LoseLives(amount: int) | ShowWave(wave: int)

  function Perform(g: GameState, c: Call): GameState
  {
    match c
    case Spend(a) => SpendGold(g, a)
    case Add(a) => AddGold(g, a)
    case LoseLives(a) => ReduceLives(g, a)
    case ShowWave(w) => SetCurrentWave(g, w)
  }

  function PerformAll(g: GameState, cs: seq<Call>): GameState
    decreases |cs|
  {
    if cs == [] then g else PerformAll(Perform(g, cs[0]), cs[1..])
  }

  /** Game over is never undone and the lives counter stays consistent,
      whatever the manager is asked to do afterwards. */
  lemma {:induction false} GameOverIsFinal(g: GameState, cs: seq<Call>)
    requires Consistent(g)
    ensures Consistent(PerformAll(g, cs))
    ensures g.gameOver ==> PerformAll(g, cs).gameOver
    ensures g.gameOver ==> PerformAll(g, cs).lives == 0
    decreases |cs|
  {
    if cs != [] {
      GameOverIsFinal(Perform(g, cs[0]), cs[1..]);
    }
  }
}

=== FILE: enemies.dfy ===
/** An enemy game object: the Enemy component (health, death, confusion
    retaliation) together with its StatusEffectManager and WaypointFollower
    siblings. The manager's calls into its siblings (`SetStunned`,
    `SetSpeedModifier`, `SetConfused`, `TakeDamage`) are modelled here, so the
    whole object is one immutable `EnemyUnit` value and every operation
    returns the next one. `Time.deltaTime`, `Time.time` and the random gold
    draw are parameters. */
module Enemies {
  import opened Numeric
  import opened Options
  import opened StatusEffects
  import Waypoints
  import Economy

  const DefaultMaxHealth: real := 100.0
  const ConfusionDamage: real := 10.0
  const ConfusionAttackCooldown: real := 1.0

  datatype EnemyUnit = EnemyUnit(
    maxHealth: real,
    health: real,
    dead: bool,
    confused: bool,
    confusionAttackTimer: real,
    effects: Ledger,
    follower: Waypoints.Follower)

  /** The sibling components show what the ledger says: the follower's stun
      flag is the movement lock, its speed is the clamped speed factor, and the
      enemy's confusion flag is the ledger's. */
  predicate Mirrored(u: EnemyUnit)
  {
    && u.follower.stunned == IsStunned(u.effects)
    && u.follower.speedModifier == Clamp(SpeedFactor(u.effects), Waypoints.MinSpeedModifier, Waypoints.MaxSpeedModifier)
    && u.confused == Active(u.effects, Confusion)
  }

  /** Everything the enemy's operations keep true. */
  predicate Valid(u: EnemyUnit)
  {
    Mirrored(u) && Resting(u.effects)
  }

  /** A new enemy (`Awake`): full health, alive, no effects. */
  function Create(maxHealth: real): (u: EnemyUnit)
    ensures u.health == u.maxHealth == maxHealth && !u.dead
    ensures Valid(u) && !IsStunned(u.effects) && !u.confused
  {
    EnemyUnit(maxHealth, maxHealth, false, false, 0.0, Fresh(), Waypoints.Fresh())
  }

  /** Sets both the maximum and the current health. */
  function SetMaxHealth(u: EnemyUnit, h: real): (r: EnemyUnit)
    ensures r.maxHealth == h && r.health == h
    ensures r.(maxHealth := u.maxHealth, health := u.health) == u
  {
    u.(maxHealth := h, health := h)
  }

  /** Current health as a fraction of the maximum. */
  function HealthPercentage(u: EnemyUnit): (p: real)
    requires u.maxHealth != 0.0
    ensures p * u.maxHealth == u.health
    ensures u.maxHealth > 0.0 && 0.0 < u.health <= u.maxHealth ==> 0.0 < p <= 1.0
  {
    u.health / u.maxHealth
  }

  // ---------------------------------------------------------------- health

  /** The death transition: runs once, granting one kill reward. */
  function Die(u: EnemyUnit, g: Economy.GameState, pick: nat): (r: (EnemyUnit, Economy.GameState))
    ensures u.dead ==> r == (u, g)
    ensures r.0.dead && r.0.(dead := u.dead) == u
    ensures !u.dead ==> r.1 == Economy.AddGold(g, Economy.RandomEnemyGold(pick))
  {
    if u.dead then (u, g)
    else (u.(dead := true), Economy.AddGold(g, Economy.RandomEnemyGold(pick)))
  }

  /** Takes `damage` scaled by the ledger's damage multiplier. Health is not
      clamped at zero; reaching zero or less kills the enemy. A dead enemy
      ignores damage. */
  function TakeDamage(u: EnemyUnit, damage: real, g: Economy.GameState, pick: nat): (r: (EnemyUnit, Economy.GameState))
    ensures u.dead ==> r == (u, g)
    ensures !u.dead ==> r.0.health == u.health - damage * DamageMultiplier(u.effects)
    ensures !u.dead ==> (r.0.dead <==> r.0.health <= 0.0)
    ensures r.0.(health := u.health, dead := u.dead) == u
    ensures r.0.effects == u.effects && r.0.follower == u.follower && r.0.confused == u.confused
    ensures r.0.dead && !u.dead ==> r.1 == Economy.AddGold(g, Economy.RandomEnemyGold(pick))
    ensures !(r.0.dead && !u.dead) ==> r.1 == g
  {
    if u.dead then (u, g)
    else
      var hit := u.(health := u.health - damage * DamageMultiplier(u.effects));
      if hit.health <= 0.0 then Die(hit, g, pick) else (hit, g)
  }

  /** A run of hits, each with its own gold draw. */
  function TakeHits(u: EnemyUnit, g: Economy.GameState, hits: seq<(real, nat)>): (EnemyUnit, Economy.GameState)
    decreases |hits|
  {
    if hits == [] then (u, g)
    else
      var s := TakeDamage(u, hits[0].0, g, hits[0].1);
      TakeHits(s.0, s.1, hits[1..])
  }

  /** Further hits on a dead enemy change nothing. */
  lemma {:induction false} DeadIgnoresHits(u: EnemyUnit, g: Economy.GameState, hits: seq<(real, nat)>)
    requires u.dead
    ensures TakeHits(u, g, hits) == (u, g)
    decreases |hits|
  {
    if hits != [] {
      DeadIgnoresHits(u, g, hits[1..]);
    }
  }

  /** However many hits an enemy takes, the kill reward is paid at most once:
      the gold grows by nothing or by one reward in the kill-reward range,
      and it grows exactly when the enemy dies. */
  lemma {:induction false} RewardPaidOnce(u: EnemyUnit, g: Economy.GameState, hits: seq<(real, nat)>)
    ensures var r := TakeHits(u, g, hits);
            r.1.lives == g.lives && r.1.wave == g.wave && r.1.gameOver == g.gameOver
    ensures var r := TakeHits(u, g, hits);
            (r.1.gold == g.gold && r.0.dead == u.dead)
            || (!u.dead && r.0.dead
                && Economy.MinGoldPerKill <= r.1.gold - g.gold <= Economy.MaxGoldPerKill)
    decreases |hits|
  {
    if hits != [] {
      var s := TakeDamage(u, hits[0].0, g, hits[0].1);
      if s.0.dead && !u.dead {
        DeadIgnoresHits(s.0, s.1, hits[1..]);
      } else {
        RewardPaidOnce(s.0, s.1, hits[1..]);
      }
    }
  }

  /** Health is not clamped: an overkill leaves it negative. */
  lemma OverkillLeavesNegativeHealth()
    ensures TakeDamage(Create(50.0), 80.0, Economy.Start(), 0).0.health == -30.0
  {
  }

  // ---------------------------------------------------------------- effect wiring

  /** `UpdateSpeedModifiers`: sends the combined speed factor to the follower. */
  function PushSpeed(u: EnemyUnit): (r: EnemyUnit)
    ensures r.follower.speedModifier == Clamp(SpeedFactor(u.effects), Waypoints.MinSpeedModifier, Waypoints.MaxSpeedModifier)
    ensures r.(follower := u.follower) == u
    ensures r.follower.stunned == u.follower.stunned
  {
    u.(follower := Waypoints.SetSpeedModifier(u.follower, SpeedFactor(u.effects)))
  }

  /** Kinds whose re-application keeps the longer duration. */
  predicate KeepsLonger(k: EffectKind)
  {
    k == Poison || k == Bleeding || k == Slow
  }

  /** `StatusEffectManager.ApplyEffect`: dispatches on the kind; Curse takes
      its slow from `slowAmount` and its amplification from `damagePerSecond`.
      Applying one kind leaves every other kind's state alone, and the
      siblings stay in step with the ledger. */
  function ApplyEffect(u: EnemyUnit, e: EffectData): (r: EnemyUnit)
    ensures e.kind != NoEffect ==> Active(r.effects, e.kind)
    ensures e.kind == NoEffect ==> r == u
    ensures KeepsLonger(e.kind) ==> Timer(r.effects, e.kind) == Max(Timer(u.effects, e.kind), e.duration)
    ensures e.kind != NoEffect && !KeepsLonger(e.kind) ==> Timer(r.effects, e.kind) == e.duration
    ensures forall j :: j != e.kind ==>
              Active(r.effects, j) == Active(u.effects, j) && Timer(r.effects, j) == Timer(u.effects, j)
    ensures e.kind == Curse ==> DamageMultiplier(r.effects) == 1.0 + e.damagePerSecond
    ensures e.kind != Curse ==> DamageMultiplier(r.effects) == DamageMultiplier(u.effects)
    ensures e.kind == Poison ==> r.effects.poisonDps == e.damagePerSecond
    ensures e.kind != Poison ==> r.effects.poisonDps == u.effects.poisonDps
    ensures e.kind == Bleeding ==> r.effects.bleedingDps == e.damagePerSecond
    ensures r.health == u.health && r.dead == u.dead && r.maxHealth == u.maxHealth
    ensures r.confusionAttackTimer == u.confusionAttackTimer
    ensures r.follower.index == u.follower.index && r.follower.moving == u.follower.moving
    ensures r.follower.waypoints == u.follower.waypoints
    ensures r.effects.nextDotTick == u.effects.nextDotTick
    ensures Valid(u) ==> Valid(r)
  {
    match e.kind
    case NoEffect => u
    case Stun =>
      u.(effects := ApplyStun(u.effects, e.duration), follower := Waypoints.SetStunned(u.follower, true))
    case Poison =>
      u.(effects := ApplyPoison(u.effects, e.duration, e.damagePerSecond))
    case Bleeding =>
      u.(effects := ApplyBleeding(u.effects, e.duration, e.damagePerSecond))
    case Freeze =>
      var v := PushSpeed(u.(effects := ApplyFreeze(u.effects, e.duration, e.slowAmount)));
      v.(follower := Waypoints.SetStunned(v.follower, true))
    case Slow =>
      PushSpeed(u.(effects := ApplySlow(u.effects, e.duration, e.slowAmount)))
    case Confusion =>
      u.(effects := ApplyConfusion(u.effects, e.duration), confused := true)
    case Curse =>
      PushSpeed(u.(effects := ApplyCurse(u.effects, e.duration, e.slowAmount, e.damagePerSecond)))
  }

  /** The manager's `Remove*` for kind `k`, with its calls into the siblings:
      a lock is lifted on the follower only if the other lock is not held,
      the three slowing kinds push the new speed factor, and confusion clears
      the enemy's flag. Every other kind is left alone; only removing the
      curse changes the damage multiplier, which returns to one. */
  function RemoveEffect(u: EnemyUnit, k: EffectKind): (r: EnemyUnit)
    ensures !Active(r.effects, k) && Timer(r.effects, k) == 0.0
    ensures forall j :: j != k ==>
              Active(r.effects, j) == Active(u.effects, j) && Timer(r.effects, j) == Timer(u.effects, j)
    ensures k == Curse ==> DamageMultiplier(r.effects) == 1.0
    ensures k != Curse ==> DamageMultiplier(r.effects) == DamageMultiplier(u.effects)
    ensures k != Poison ==> r.effects.poisonDps == u.effects.poisonDps
    ensures r.health == u.health && r.dead == u.dead && r.maxHealth == u.maxHealth
    ensures r.follower.index == u.follower.index && r.follower.moving == u.follower.moving
    ensures r.follower.waypoints == u.follower.waypoints
    ensures r.effects.nextDotTick == u.effects.nextDotTick
    ensures r.confusionAttackTimer == u.confusionAttackTimer
    ensures Resting(u.effects) ==> Resting(r.effects)
    ensures Valid(u) ==> Valid(r)
  {
    var l := Remove(u.effects, k);
    u.(effects := l,
       follower := u.follower.(
         stunned := if (k == Stun || k == Freeze) && !IsStunned(l) then false else u.follower.stunned,
         speedModifier := if k == Freeze || k == Slow || k == Curse
                          then Clamp(SpeedFactor(l), Waypoints.MinSpeedModifier, Waypoints.MaxSpeedModifier)
                          else u.follower.speedModifier),
       confused := if k == Confusion then false else u.confused)
  }

  /** One kind's part of `UpdateEffectTimers`: an active effect's timer runs
      down by `dt`, and at zero or below the effect is removed. */
  function TickKind(u: EnemyUnit, k: EffectKind, dt: real): (r: EnemyUnit)
    ensures Active(r.effects, k) <==> Active(u.effects, k) && Timer(u.effects, k) - dt > 0.0
    ensures Active(r.effects, k) ==> Timer(r.effects, k) == Timer(u.effects, k) - dt
    ensures !Active(u.effects, k) ==> r == u
    ensures Active(u.effects, k) && !Active(r.effects, k) ==> Timer(r.effects, k) == 0.0
    ensures forall j :: j != k ==>
              Active(r.effects, j) == Active(u.effects, j) && Timer(r.effects, j) == Timer(u.effects, j)
    ensures k != Curse || Active(r.effects, k) ==> DamageMultiplier(r.effects) == DamageMultiplier(u.effects)
    ensures k != Poison || Active(r.effects, k) ==> r.effects.poisonDps == u.effects.poisonDps
    ensures r.health == u.health && r.dead == u.dead && r.maxHealth == u.maxHealth
    ensures r.follower.index == u.follower.index && r.follower.moving == u.follower.moving
    ensures r.follower.waypoints == u.follower.waypoints
    ensures r.effects.nextDotTick == u.effects.nextDotTick
    ensures r.confusionAttackTimer == u.confusionAttackTimer
    ensures Valid(u) ==> Valid(r)
  {
    if !Active(u.effects, k) then u
    else
      var t := Timer(u.effects, k) - dt;
      var v := u.(effects := WithTimer(u.effects, k, t));
      if t <= 0.0 then RemoveEffect(v, k) else v
  }

  /** The kinds of `ks` in order, each ticked once. */
  function TickKinds(u: EnemyUnit, ks: seq<EffectKind>, dt: real): EnemyUnit
    decreases |ks|
  {
    if ks == [] then u else TickKinds(TickKind(u, ks[0], dt), ks[1..], dt)
  }

  predicate Distinct(ks: seq<EffectKind>)
  {
    forall i, j :: 0 <= i < j < |ks| ==> ks[i] != ks[j]
  }

  /** The tail of a list without repetitions has none either, and does not
      contain the head. */
  lemma DistinctTail(ks: seq<EffectKind>)
    requires Distinct(ks) && ks != []
    ensures Distinct(ks[1..]) && ks[0] !in ks[1..]
  {
    var rest := ks[1..];
    forall i | 0 <= i < |rest| ensures rest[i] != ks[0] {
      assert rest[i] == ks[i + 1];
    }
  }

  /** Ticking a list of distinct kinds treats each kind as if it were ticked
      alone: the removals of one kind do not disturb another kind's state. */
  lemma TickKindsEffect(u: EnemyUnit, ks: seq<EffectKind>, dt: real)
    requires Distinct(ks)
    ensures var r := TickKinds(u, ks, dt);
            forall k :: k in ks ==>
              && (Active(r.effects, k) <==> Active(u.effects, k) && Timer(u.effects, k) - dt > 0.0)
              && (Active(r.effects, k) ==> Timer(r.effects, k) == Timer(u.effects, k) - dt)
              && (!Active(r.effects, k) ==> Timer(r.effects, k) == 0.0 || Timer(r.effects, k) == Timer(u.effects, k))
              && (!Active(u.effects, k) ==> Timer(r.effects, k) == Timer(u.effects, k))
    ensures var r := TickKinds(u, ks, dt);
            forall k :: k !in ks ==> Active(r.effects, k) == Active(u.effects, k) && Timer(r.effects, k) == Timer(u.effects, k)
    ensures Valid(u) ==> Valid(TickKinds(u, ks, dt))
    ensures var r := TickKinds(u, ks, dt);
            r.health == u.health && r.dead == u.dead && r.maxHealth == u.maxHealth
            && r.follower.index == u.follower.index && r.follower.moving == u.follower.moving
            && r.follower.waypoints == u.follower.waypoints
            && r.effects.nextDotTick == u.effects.nextDotTick
            && r.confusionAttackTimer == u.confusionAttackTimer
    ensures Curse !in ks || !(Active(u.effects, Curse) && Timer(u.effects, Curse) - dt <= 0.0) ==>
              DamageMultiplier(TickKinds(u, ks, dt).effects) == DamageMultiplier(u.effects)
    ensures Poison !in ks || (Active(u.effects, Poison) && Timer(u.effects, Poison) - dt > 0.0) ==>
              TickKinds(u, ks, dt).effects.poisonDps == u.effects.poisonDps
  {
    TickKindsTimers(u, ks, dt);
    TickKindsKeeps(u, ks, dt);
  }

  /** The per-kind half of `TickKindsEffect`. */
  lemma {:induction false} TickKindsTimers(u: EnemyUnit, ks: seq<EffectKind>, dt: real)
    requires Distinct(ks)
    ensures var r := TickKinds(u, ks, dt);
            forall k :: k in ks ==>
              && (Active(r.effects, k) <==> Active(u.effects, k) && Timer(u.effects, k) - dt > 0.0)
              && (Active(r.effects, k) ==> Timer(r.effects, k) == Timer(u.effects, k) - dt)
              && (!Active(r.effects, k) ==> Timer(r.effects, k) == 0.0 || Timer(r.effects, k) == Timer(u.effects, k))
              && (!Active(u.effects, k) ==> Timer(r.effects, k) == Timer(u.effects, k))
    ensures var r := TickKinds(u, ks, dt);
            forall k :: k !in ks ==> Active(r.effects, k) == Active(u.effects, k) && Timer(r.effects, k) == Timer(u.effects, k)
    decreases |ks|
  {
    if ks != [] {
      DistinctTail(ks);
      TickKindsTimers(TickKind(u, ks[0], dt), ks[1..], dt);
    }
  }

  /** The frame half of `TickKindsEffect`. */
  lemma {:induction false} TickKindsKeeps(u: EnemyUnit, ks: seq<EffectKind>, dt: real)
    requires Distinct(ks)
    ensures Valid(u) ==> Valid(TickKinds(u, ks, dt))
    ensures var r := TickKinds(u, ks, dt);
            r.health == u.health && r.dead == u.dead && r.maxHealth == u.maxHealth
            && r.follower.index == u.follower.index && r.follower.moving == u.follower.moving
            && r.follower.waypoints == u.follower.waypoints
            && r.effects.nextDotTick == u.effects.nextDotTick
            && r.confusionAttackTimer == u.confusionAttackTimer
    ensures Curse !in ks || !(Active(u.effects, Curse) && Timer(u.effects, Curse) - dt <= 0.0) ==>
              DamageMultiplier(TickKinds(u, ks, dt).effects) == DamageMultiplier(u.effects)
    ensures Poison !in ks || (Active(u.effects, Poison) && Timer(u.effects, Poison) - dt > 0.0) ==>
              TickKinds(u, ks, dt).effects.poisonDps == u.effects.poisonDps
    decreases |ks|
  {
    if ks != [] {
      DistinctTail(ks);
      TickKindsKeeps(TickKind(u, ks[0], dt), ks[1..], dt);
    }
  }

  /** The update order lists every timed kind exactly once. */
  lemma TimedKindsCoverAll()
    ensures Distinct(TimedKinds)
    ensures forall k :: k != NoEffect <==> k in TimedKinds
  {
    forall k | k != NoEffect ensures k in TimedKinds {
      match k
      case Stun => assert TimedKinds[0] == k;
      case Poison => assert TimedKinds[1] == k;
      case Bleeding => assert TimedKinds[2] == k;
      case Freeze => assert TimedKinds[3] == k;
      case Slow => assert TimedKinds[4] == k;
      case Confusion => assert TimedKinds[5] == k;
      case Curse => assert TimedKinds[6] == k;
    }
  }

  /** `UpdateEffectTimers`: every active effect's timer runs down by `dt`;
      exactly those effects whose timer reaches zero or less end, with the
      timer reset to zero. Inactive effects are untouched. The damage
      multiplier and the poison rate change only when the curse or the
      poison ends. */
  function UpdateEffectTimers(u: EnemyUnit, dt: real): (r: EnemyUnit)
    ensures forall k :: k != NoEffect ==>
              && (Active(r.effects, k) <==> Active(u.effects, k) && Timer(u.effects, k) - dt > 0.0)
              && (Active(r.effects, k) ==> Timer(r.effects, k) == Timer(u.effects, k) - dt)
              && (Active(u.effects, k) && !Active(r.effects, k) ==> Timer(r.effects, k) == 0.0)
              && (!Active(u.effects, k) ==> Timer(r.effects, k) == Timer(u.effects, k))
    ensures !(Active(u.effects, Curse) && Timer(u.effects, Curse) - dt <= 0.0) ==>
              DamageMultiplier(r.effects) == DamageMultiplier(u.effects)
    ensures Active(u.effects, Poison) && Timer(u.effects, Poison) - dt > 0.0 ==>
              r.effects.poisonDps == u.effects.poisonDps
    ensures Valid(u) ==> Valid(r)
    ensures r.health == u.health && r.dead == u.dead && r.maxHealth == u.maxHealth
    ensures r.follower.index == u.follower.index && r.follower.moving == u.follower.moving
    ensures r.follower.waypoints == u.follower.waypoints
    ensures r.effects.nextDotTick == u.effects.nextDotTick
    ensures r.confusionAttackTimer == u.confusionAttackTimer
  {
    TimedKindsCoverAll();
    TickKindsEffect(u, TimedKinds, dt);
    TickKinds(u, TimedKinds, dt)
  }

  /** A short freeze that runs out this frame no longer holds the enemy, and
      the follower is released in the same frame (the documented example:
      freeze for 0.1, a frame of 0.2). */
  lemma ExpiredFreezeReleases(u: EnemyUnit)
    requires Valid(u) && !Active(u.effects, Stun)
    ensures var r := UpdateEffectTimers(ApplyEffect(u, EffectData(Freeze, 0.1, 0.0, 0.5)), 0.2);
            !IsStunned(r.effects) && !r.follower.stunned && Waypoints.IsMoving(r.follower) == r.follower.moving
  {
  }

  /** `ApplyDOTDamage`: when the next tick is due, schedules the one after it
      half a second later and deals the summed poison and bleeding damage
      (through `TakeDamage`, so a curse amplifies it) if it is positive. */
  function ApplyDotDamage(u: EnemyUnit, now: real, g: Economy.GameState, pick: nat): (r: (EnemyUnit, Economy.GameState))
    ensures now < u.effects.nextDotTick ==> r == (u, g)
    ensures now >= u.effects.nextDotTick ==> r.0.effects.nextDotTick == now + DotTickRate
    ensures now >= u.effects.nextDotTick && DotDamage(u.effects) > 0.0 && !u.dead ==>
              r.0.health == u.health - DotDamage(u.effects) * DamageMultiplier(u.effects)
    ensures now >= u.effects.nextDotTick && DotDamage(u.effects) <= 0.0 ==> r.0.health == u.health && r.1 == g
    ensures u.dead ==> r.0.health == u.health && r.0.dead && r.1 == g
    ensures r.0.follower == u.follower && r.0.confused == u.confused
    ensures forall j :: Active(r.0.effects, j) == Active(u.effects, j) && Timer(r.0.effects, j) == Timer(u.effects, j)
    ensures IsStunned(r.0.effects) == IsStunned(u.effects) && SpeedFactor(r.0.effects) == SpeedFactor(u.effects)
    ensures DamageMultiplier(r.0.effects) == DamageMultiplier(u.effects)
    ensures Resting(u.effects) ==> Resting(r.0.effects)
    ensures Valid(u) ==> Valid(r.0)
  {
    if now >= u.effects.nextDotTick then
      var v := u.(effects := ScheduleDot(u.effects, now + DotTickRate));
      var total := DotDamage(v.effects);
      if total > 0.0 then TakeDamage(v, total, g, pick) else (v, g)
    else (u, g)
  }

  /** The manager's `Update`: nothing on a dead enemy; otherwise the timers
      first, then the damage-over-time tick, so an effect ending this frame
      deals no damage-over-time in it. */
  function ManagerUpdate(u: EnemyUnit, dt: real, now: real, g: Economy.GameState, pick: nat): (r: (EnemyUnit, Economy.GameState))
    ensures u.dead ==> r == (u, g)
    ensures Valid(u) ==> Valid(r.0)
    ensures !u.dead && now >= u.effects.nextDotTick && Active(u.effects, Poison)
            && Timer(u.effects, Poison) - dt <= 0.0 && !Active(u.effects, Bleeding) ==>
              r.0.health == u.health && r.1 == g
    ensures !u.dead && now < u.effects.nextDotTick ==> r.0.health == u.health && r.1 == g
  {
    if u.dead then (u, g)
    else ApplyDotDamage(UpdateEffectTimers(u, dt), now, g, pick)
  }

  /** A poison that ends this frame deals no damage in it: the timers are
      updated before the damage-over-time tick. */
  lemma ExpiredPoisonDealsNothing(u: EnemyUnit, dt: real, now: real, g: Economy.GameState, pick: nat)
    requires !u.dead
    requires Active(u.effects, Poison) && Timer(u.effects, Poison) - dt <= 0.0
    requires !Active(u.effects, Bleeding)
    ensures ManagerUpdate(u, dt, now, g, pick).0.health == u.health
    ensures ManagerUpdate(u, dt, now, g, pick).1 == g
  {
  }

  /** `ClearAllEffects`: each active effect is removed, in the update order. */
  function ClearKinds(u: EnemyUnit, ks: seq<EffectKind>): (r: EnemyUnit)
    ensures forall k :: k in ks ==> !Active(r.effects, k) && Timer(r.effects, k) == 0.0
    ensures forall k :: k !in ks ==> Active(r.effects, k) == Active(u.effects, k)
    ensures Resting(u.effects) ==> Resting(r.effects)
    ensures Valid(u) ==> Valid(r)
    ensures Curse in ks && Resting(u.effects) ==> DamageMultiplier(r.effects) == 1.0
    ensures r.health == u.health && r.dead == u.dead
    decreases |ks|
  {
    if ks == [] then u
    else
      var v := if Active(u.effects, ks[0]) then RemoveEffect(u, ks[0]) else u;
      ClearKinds(v, ks[1..])
  }

  /** After clearing, no timed effect is active and every timer is zero; from
      a ledger whose inactive effects are neutral, the damage multiplier and
      the speed factor are back to one. */
  function ClearAllEffects(u: EnemyUnit): (r: EnemyUnit)
    ensures forall k :: k != NoEffect ==> !Active(r.effects, k) && Timer(r.effects, k) == 0.0
    ensures Resting(u.effects) ==> Resting(r.effects) && forall k :: !Active(r.effects, k)
    ensures Resting(u.effects) ==> DamageMultiplier(r.effects) == 1.0 && SpeedFactor(r.effects) == 1.0
    ensures Valid(u) ==> Valid(r) && !r.follower.stunned && r.follower.speedModifier == 1.0 && !r.confused
    ensures r.health == u.health && r.dead == u.dead
  {
    var r := ClearKinds(u, TimedKinds);
    TimedKindsCoverAll();
    if Resting(u.effects) then
      RestingSpeedFactor(r.effects);
      r
    else r
  }

  /** Curse amplification: while cursed with amplification `a`, a hit of `d`
      costs `d * (1 + a)` health; a curse with amplification 0.5 turns a hit of
      10 into a loss of 15. */
  lemma CurseAmplifiesDamage(u: EnemyUnit, duration: real, slowAmount: real, a: real, d: real, g: Economy.GameState, pick: nat)
    requires !u.dead
    ensures var c := ApplyEffect(u, EffectData(Curse, duration, a, slowAmount));
            TakeDamage(c, d, g, pick).0.health == u.health - d * (1.0 + a)
    ensures var c := ApplyEffect(Create(100.0), EffectData(Curse, 3.0, 0.5, 0.3));
            TakeDamage(c, 10.0, g, pick).0.health == 85.0
  {
    var c := ApplyEffect(Create(100.0), EffectData(Curse, 3.0, 0.5, 0.3));
    assert DamageMultiplier(c.effects) == 1.5;
  }

  /** Slow 0.5 and curse slow 0.3 together: 0.5 times 0.7, clamped. */
  lemma SpeedFactorsMultiply()
    ensures var u := ApplyEffect(ApplyEffect(Create(100.0), EffectData(Slow, 2.0, 0.0, 0.5)), EffectData(Curse, 3.0, 0.5, 0.3));
            SpeedFactor(u.effects) == 0.35 && u.follower.speedModifier == 0.35
  {
    var s := ApplyEffect(Create(100.0), EffectData(Slow, 2.0, 0.0, 0.5));
    assert s.effects.slowModifier == 0.5 && s.effects.curseSlowModifier == 1.0 && s.effects.freezeSlowModifier == 1.0;
    var c := ApplyEffect(s, EffectData(Curse, 3.0, 0.5, 0.3));
    assert c.effects.slowModifier == 0.5 && c.effects.curseSlowModifier == 0.7 && c.effects.freezeSlowModifier == 1.0;
  }

  // ---------------------------------------------------------------- confusion

  /** A collider found around a confused enemy. */
  datatype Nearby = Nearby(isSelf: bool, enemyTagged: bool, enemy: Option<EnemyUnit>)

  /** Another live enemy a confused enemy may hit. */
  predicate Eligible(n: Nearby)
  {
    !n.isSelf && n.enemyTagged && n.enemy.Some? && !n.enemy.value.dead
  }

  /** The first eligible collider at or after `from`. */
  function FirstEligible(ns: seq<Nearby>, from: nat): (r: Option<nat>)
    requires from <= |ns|
    ensures r.Some? ==> from <= r.value < |ns| && Eligible(ns[r.value])
    ensures r.Some? ==> forall i :: from <= i < r.value ==> !Eligible(ns[i])
    ensures r.None? ==> forall i :: from <= i < |ns| ==> !Eligible(ns[i])
    decreases |ns| - from
  {
    if from == |ns| then None
    else if Eligible(ns[from]) then Some(from)
    else FirstEligible(ns, from + 1)
  }

  /** `AttackNearbyEnemies`: hits the first other live enemy among the
      colliders once, and nothing else. */
  function AttackNearbyEnemies(ns: seq<Nearby>, g: Economy.GameState, pick: nat): (r: (seq<Nearby>, Economy.GameState))
    ensures |r.0| == |ns|
    ensures forall i, j :: 0 <= i < j < |ns| && r.0[i] != ns[i] ==> r.0[j] == ns[j]
    ensures forall i :: 0 <= i < |ns| && r.0[i] != ns[i] ==> Eligible(ns[i])
    ensures (forall i :: 0 <= i < |ns| ==> !Eligible(ns[i])) ==> r == (ns, g)
    ensures forall i :: 0 <= i < |ns| && Eligible(ns[i]) && (forall j :: 0 <= j < i ==> !Eligible(ns[j])) ==>
              r.0[i].enemy.Some? && r.0[i].isSelf == ns[i].isSelf &&
              r.0[i].enemy.value.health == ns[i].enemy.value.health - ConfusionDamage * DamageMultiplier(ns[i].enemy.value.effects)
    ensures FirstEligible(ns, 0).Some? ==>
              var i := FirstEligible(ns, 0).value;
              && (r.0[i].enemy.value, r.1) == TakeDamage(ns[i].enemy.value, ConfusionDamage, g, pick)
              && r.0[i].enemyTagged == ns[i].enemyTagged
    ensures forall j :: 0 <= j < |ns| && r.0[j] != ns[j] ==> FirstEligible(ns, 0) == Some(j)
  {
    match FirstEligible(ns, 0)
    case None => (ns, g)
    case Some(i) =>
      var hit := TakeDamage(ns[i].enemy.value, ConfusionDamage, g, pick);
      (ns[i := ns[i].(enemy := Some(hit.0))], hit.1)
  }

  /** The confusion part of `Enemy.Update`: while alive and confused the attack
      timer runs down; at zero or below the enemy attacks once and the timer
      restarts at the cooldown. */
  function ConfusionUpdate(u: EnemyUnit, dt: real, ns: seq<Nearby>, g: Economy.GameState, pick: nat)
    : (r: (EnemyUnit, seq<Nearby>, Economy.GameState))
    ensures u.dead || !u.confused ==> r == (u, ns, g)
    ensures !u.dead && u.confused && u.confusionAttackTimer - dt <= 0.0 ==>
              r.0.confusionAttackTimer == ConfusionAttackCooldown && (r.1, r.2) == AttackNearbyEnemies(ns, g, pick)
    ensures !u.dead && u.confused && u.confusionAttackTimer - dt > 0.0 ==>
              r.0.confusionAttackTimer == u.confusionAttackTimer - dt && r.1 == ns && r.2 == g
    ensures r.0.(confusionAttackTimer := u.confusionAttackTimer) == u
  {
    if u.dead || !u.confused then (u, ns, g)
    else
      var t := u.confusionAttackTimer - dt;
      if t <= 0.0 then
        var attack := AttackNearbyEnemies(ns, g, pick);
        (u.(confusionAttackTimer := ConfusionAttackCooldown), attack.0, attack.1)
      else (u.(confusionAttackTimer := t), ns, g)
  }

  /** The total time of a run of frames. */
  function TotalTime(dts: seq<real>): real
    decreases |dts|
  {
    if dts == [] then 0.0 else dts[0] + TotalTime(dts[1..])
  }

  /** Frames in which no time runs backwards. */
  predicate Forward(dts: seq<real>)
  {
    forall i :: 0 <= i < |dts| ==> dts[i] >= 0.0
  }

  /** The gold draw of the current frame: the next of `picks`, or 0 once
      they have run out. */
  function FirstPick(picks: seq<nat>): nat
  {
    if picks == [] then 0 else picks[0]
  }

  /** The draws left for the later frames. */
  function LaterPicks(picks: seq<nat>): seq<nat>
  {
    if picks == [] then [] else picks[1..]
  }

  /** A run of confusion frames with frame times `dts` against the same
      colliders, each frame with its own gold draw from `picks`; the last
      component counts the frames in which the attack timer ran out and the
      enemy lashed out. */
  function ConfusionFrames(u: EnemyUnit, dts: seq<real>, ns: seq<Nearby>, g: Economy.GameState, picks: seq<nat>)
    : (r: (EnemyUnit, seq<Nearby>, Economy.GameState, nat))
    ensures r.0.(confusionAttackTimer := u.confusionAttackTimer) == u
    decreases |dts|
  {
    if dts == [] then (u, ns, g, 0)
    else
      var f := ConfusionUpdate(u, dts[0], ns, g, FirstPick(picks));
      var attacked := !u.dead && u.confused && u.confusionAttackTimer - dts[0] <= 0.0;
      var rest := ConfusionFrames(f.0, dts[1..], f.1, f.2, LaterPicks(picks));
      (rest.0, rest.1, rest.2, rest.3 + (if attacked then 1 else 0))
  }

  /** While the attack timer outlasts the frames, a confused enemy does not
      attack: the colliders and the gold are untouched and the timer has run
      down by the time that passed. */
  lemma {:induction false} NoAttackWhileCoolingDown(u: EnemyUnit, dts: seq<real>, ns: seq<Nearby>, g: Economy.GameState, picks: seq<nat>)
    requires Forward(dts) && u.confusionAttackTimer > TotalTime(dts)
    ensures var r := ConfusionFrames(u, dts, ns, g, picks);
            r.3 == 0 && r.1 == ns && r.2 == g
    ensures !u.dead && u.confused ==>
              ConfusionFrames(u, dts, ns, g, picks).0.confusionAttackTimer == u.confusionAttackTimer - TotalTime(dts)
    decreases |dts|
  {
    if dts != [] {
      TotalTimeForward(dts[1..]);
      var f := ConfusionUpdate(u, dts[0], ns, g, FirstPick(picks));
      NoAttackWhileCoolingDown(f.0, dts[1..], f.1, f.2, LaterPicks(picks));
    }
  }

  lemma {:induction false} TotalTimeForward(dts: seq<real>)
    requires Forward(dts)
    ensures TotalTime(dts) >= 0.0
    decreases |dts|
  {
    if dts != [] {
      TotalTimeForward(dts[1..]);
    }
  }

  /** One retaliation per cooldown: over frames that together last less than
      the cooldown, a confused enemy attacks at most once, whatever its timer
      held at the start. */
  lemma {:induction false} OneAttackPerCooldown(u: EnemyUnit, dts: seq<real>, ns: seq<Nearby>, g: Economy.GameState, picks: seq<nat>)
    requires Forward(dts) && TotalTime(dts) < ConfusionAttackCooldown
    ensures ConfusionFrames(u, dts, ns, g, picks).3 <= 1
    decreases |dts|
  {
    if dts != [] {
      TotalTimeForward(dts[1..]);
      var f := ConfusionUpdate(u, dts[0], ns, g, FirstPick(picks));
      if !u.dead && u.confused && u.confusionAttackTimer - dts[0] <= 0.0 {
        NoAttackWhileCoolingDown(f.0, dts[1..], f.1, f.2, LaterPicks(picks));
      } else {
        OneAttackPerCooldown(f.0, dts[1..], f.1, f.2, LaterPicks(picks));
      }
    }
  }
}

=== FILE: numeric.dfy ===
/** Numeric helpers shared by the game rules: the Unity `Mathf` functions the
    scripts call, written over unbounded reals and integers, and the integer
    form of `Random.Range` with the random draw passed in as a parameter. */
module Numeric {

  /** `Mathf.Max` on two floats. */
  function Max(a: real, b: real): (r: real)
    ensures r >= a && r >= b
    ensures r == a || r == b
  {
    if a >= b then a else b
  }

  /** `Mathf.Clamp(value, min, max)`: below `min` gives `min`, above `max`
      gives `max`, anything else is returned as it is. */
  function Clamp(x: real, lo: real, hi: real): (r: real)
    ensures lo <= hi ==> lo <= r <= hi
    ensures lo <= x <= hi ==> r == x
    ensures x < lo ==> r == lo
    ensures lo <= hi && hi < x ==> r == hi
  {
    if x < lo then lo else if x > hi then hi else x
  }

  /** `Mathf.Lerp(a, b, t)`, which clamps `t` to [0, 1] before interpolating
      (`a + (b - a) * t` with the clamped `t`; the two ends are written out). */
  function Lerp(a: real, b: real, t: real): (r: real)
    ensures a <= b ==> a <= r <= b
    ensures t <= 0.0 ==> r == a
    ensures t >= 1.0 ==> r == b
  {
    if t <= 0.0 then a
    else if t >= 1.0 then b
    else if a <= b then
      ScaleByFraction(b - a, t);
      a + (b - a) * t
    else
      a + (b - a) * t
  }

  /** Scaling a non-negative amount by a fraction in [0, 1] stays within
      [0, amount]. */
  lemma ScaleByFraction(d: real, c: real)
    requires d >= 0.0 && 0.0 <= c <= 1.0
    ensures 0.0 <= d * c <= d
  {
  }

  /** `Mathf.RoundToInt`: nearest integer, halves going to the even neighbour
      (the rounding `System.Math.Round` performs by default). */
  function RoundToInt(x: real): (r: int)
    ensures x - 0.5 <= r as real <= x + 0.5
    ensures (r as real - x == 0.5 || x - r as real == 0.5) ==> r % 2 == 0
  {
    var f := x.Floor;
    var frac := x - f as real;
    if frac < 0.5 then f
    else if frac > 0.5 then f + 1
    else if f % 2 == 0 then f
    else f + 1
  }

  /** Rounding never leaves an interval whose ends are integers. */
  lemma RoundToIntWithin(x: real, lo: int, hi: int)
    requires lo as real <= x <= hi as real
    ensures lo <= RoundToInt(x) <= hi
  {
  }

  /** Rounding never turns a smaller value into a larger integer. */
  lemma RoundToIntMonotone(x: real, y: real)
    requires x <= y
    ensures RoundToInt(x) <= RoundToInt(y)
  {
  }

  /** Interpolating towards a larger end grows with the fraction. */
  lemma LerpMonotone(a: real, b: real, s: real, t: real)
    requires a <= b && s <= t
    ensures Lerp(a, b, s) <= Lerp(a, b, t)
  {
    if 0.0 < s < 1.0 && 0.0 < t < 1.0 {
      var d := b - a;
      ScaleMonotone(d, s, t);
      calc {
        Lerp(a, b, s);
        a + d * s;
      <= a + d * t;
        Lerp(a, b, t);
      }
    } else if 0.0 < s < 1.0 {
      ScaleByFraction(b - a, s);
    } else if 0.0 < t < 1.0 {
      ScaleByFraction(b - a, t);
    }
  }

  /** Scaling a non-negative amount by a larger factor gives more. */
  lemma ScaleMonotone(d: real, s: real, t: real)
    requires d >= 0.0 && s <= t
    ensures d * s <= d * t
  {
  }

  /** `Mathf.Pow` for a whole-number exponent. */
  function Pow(b: real, n: nat): real
  {
    if n == 0 then 1.0 else b * Pow(b, n - 1)
  }

  /** A base of at least one never gives a power below one, and a larger
      exponent never gives a smaller power. */
  lemma {:induction false} PowMonotone(b: real, m: nat, n: nat)
    requires b >= 1.0
    requires m <= n
    ensures 1.0 <= Pow(b, m) <= Pow(b, n)
  {
    if n == m {
      if m > 0 {
        PowMonotone(b, m - 1, m - 1);
      }
    } else {
      PowMonotone(b, m, n - 1);
      assert Pow(b, n) == b * Pow(b, n - 1);
    }
  }

  /** `Random.Range(lo, hiExclusive)` on integers, with the draw given as
      `pick`: any draw lands in [lo, hiExclusive) when that range is not
      empty; an empty range yields `lo`. */
  function RandomRangeInt(lo: int, hiExclusive: int, pick: nat): (r: int)
    ensures lo < hiExclusive ==> lo <= r < hiExclusive
    ensures hiExclusive <= lo ==> r == lo
  {
    if hiExclusive <= lo then lo else lo + pick % (hiExclusive - lo)
  }

  /** Every value of a non-empty range is produced by some draw, so the
      parameter does not restrict the outcomes the game can see. */
  lemma RandomRangeIntReachesAll(lo: int, hiExclusive: int, v: int)
    requires lo <= v < hiExclusive
    ensures RandomRangeInt(lo, hiExclusive, (v - lo) as nat) == v
  {
  }

  /** The product of a list of factors; the empty product is one. */
  function Product(fs: seq<real>): real
    decreases |fs|
  {
    if fs == [] then 1.0 else fs[0] * Product(fs[1..])
  }

  lemma ProductOfThree(a: real, b: real, c: real)
    ensures Product([a, b, c]) == a * b * c
  {
    assert [a, b, c][1..] == [b, c];
    assert [b, c][1..] == [c];
    assert [c][1..] == [];
    assert Product([c]) == c;
    assert Product([b, c]) == b * c;
    assert Product([a, b, c]) == a * (b * c);
  }
}

=== FILE: options.dfy ===
/** An optional value, standing for the scripts' nullable references. */
module Options {
  datatype Option<+T> = None | Some(value: T)
}

=== FILE: placement.dfy ===
/** TowerPlacement: the build panel. Touching a free build site selects it and
    opens the panel; a tower button buys the tower for the selected site when
    the player can afford it. The scene's build sites are a sequence and a
    selection is an index into it; a tower prefab is the TowerData a new
    tower starts with (`None` where the prefab slot is empty). Animation,
    audio and text are left out. */
module Placement {
  import opened Options
  import opened Towers
  import opened BuildSites
  import TowerCombat
  import Economy

  /** The inspector's default price of each tower type. */
  function Cost(t: TowerType): (c: int)
    ensures 100 <= c <= 180
  {
    match t
    case Hunter => 100
    case Jester => 120
    case Lumberjack => 150
    case Priest => 180
    case Alchemist => 140
    case Warrior => 160
  }

  type Sites = seq<Site<TowerCombat.Tower>>

  /** The panel's state: whether it is open, the selected site, whether the
      panel object exists at all (without it the panel never opens), and the
      gold the tower buttons were last enabled for. Buttons are refreshed
      only when the panel opens; until the first opening (`None`) they keep
      the scene's interactable state. */
  datatype Panel = Panel(open: bool, current: Option<nat>, hasPanelParent: bool, buttonGold: Option<int>)

  /** The panel as the scene starts it: closed, nothing selected, buttons
      untouched. */
  function Start(hasPanelParent: bool): (p: Panel)
    ensures !p.open && p.current.None? && p.buttonGold.None?
    ensures forall sites: Sites :: Consistent(p, sites)
  {
    Panel(false, None, hasPanelParent, None)
  }

  /** The selection points at an existing site. */
  predicate Addresses(p: Panel, sites: Sites)
  {
    p.current.Some? ==> p.current.value < |sites|
  }

  /** With a panel object present, the panel is open exactly while a site is
      selected, and the selected site is free. */
  predicate Consistent(p: Panel, sites: Sites)
  {
    && Addresses(p, sites)
    && (p.hasPanelParent ==>
          && (p.open <==> p.current.Some?)
          && (p.current.Some? ==> !IsOccupied(sites[p.current.value])))
  }

  /** What a touch on the screen hit. */
  datatype Touch =
    | Elsewhere                 // no collider, or one that is not a build site
    | TaggedWithoutSite         // a build-site collider without the component
    | OnSite(index: nat)        // build site `index`

  /** `OpenPanel`: nothing if already open or there is no panel object;
      otherwise opens and, through `UpdateButtonStates`, enables exactly the
      buttons the current gold affords. */
  function OpenPanel(p: Panel, gold: int): (r: Panel)
    ensures p.open || !p.hasPanelParent ==> r == p
    ensures !p.open && p.hasPanelParent ==>
              r.open && forall t :: ButtonEnabled(r, t) <==> gold >= Cost(t)
    ensures r.current == p.current && r.hasPanelParent == p.hasPanelParent
  {
    if p.open || !p.hasPanelParent then p else p.(open := true, buttonGold := Some(gold))
  }

  /** `ClosePanel`: nothing if already closed; otherwise closes and drops the
      selection. */
  function ClosePanel(p: Panel): (r: Panel)
    ensures !p.open ==> r == p
    ensures p.open ==> !r.open && r.current.None?
    ensures r.hasPanelParent == p.hasPanelParent && r.buttonGold == p.buttonGold
  {
    if !p.open then p else p.(open := false, current := None)
  }

  /** Closing twice is closing once. */
  lemma CloseIsIdempotent(p: Panel)
    ensures ClosePanel(ClosePanel(p)) == ClosePanel(p)
  {
  }

  /** `HandleScreenTouch`: a free site becomes the selection and the panel
      opens at the current gold; an occupied site is ignored; a touch
      elsewhere closes an open panel. */
  function HandleTouch(p: Panel, sites: Sites, gold: int, touch: Touch): (r: Panel)
    requires touch.OnSite? ==> touch.index < |sites|
    ensures touch.OnSite? && !IsOccupied(sites[touch.index]) ==>
              r == OpenPanel(p.(current := Some(touch.index)), gold) && (p.hasPanelParent ==> r.open)
    ensures touch.OnSite? && IsOccupied(sites[touch.index]) ==> r == p
    ensures touch.TaggedWithoutSite? ==> r == p
    ensures touch.Elsewhere? ==> r == ClosePanel(p)
    ensures Addresses(p, sites) ==> Addresses(r, sites)
    ensures Consistent(p, sites) ==> Consistent(r, sites)
  {
    match touch
    case OnSite(i) =>
      if !IsOccupied(sites[i]) then OpenPanel(p.(current := Some(i)), gold) else p
    case TaggedWithoutSite => p
    case Elsewhere => ClosePanel(p)
  }

  /** `PlaceTower` for a button of type `t`: with a selection and a prefab,
      and gold enough, pays the price, puts a new tower on the selected site
      and closes the panel. Otherwise nothing changes. */
  function PlaceTower(p: Panel, sites: Sites, g: Economy.GameState, t: TowerType, prefab: Option<TowerData>)
    : (r: (Panel, Sites, Economy.GameState))
    requires Addresses(p, sites)
    ensures p.current.None? || prefab.None? ==> r == (p, sites, g)
    ensures !Economy.CanAfford(g, Cost(t)) ==> r == (p, sites, g)
    ensures p.current.Some? && prefab.Some? && Economy.CanAfford(g, Cost(t)) ==>
              && r.2 == Economy.SpendGold(g, Cost(t))
              && |r.1| == |sites|
              && r.1[p.current.value] == BuildSites.PlaceTower(sites[p.current.value], TowerCombat.Build(prefab.value))
              && (forall j :: 0 <= j < |sites| && j != p.current.value ==> r.1[j] == sites[j])
              && r.0 == ClosePanel(p)
    ensures Addresses(r.0, r.1)
    ensures Consistent(p, sites) ==> Consistent(r.0, r.1)
  {
    if p.current.None? || prefab.None? then (p, sites, g)
    else if !Economy.CanAfford(g, Cost(t)) then (p, sites, g)
    else
      var i := p.current.value;
      var tower := TowerCombat.Build(prefab.value);
      (ClosePanel(p), sites[i := BuildSites.PlaceTower(sites[i], tower)], Economy.SpendGold(g, Cost(t)))
  }

  /** With a panel object present, a tower is only ever put on a free site:
      no site is paid for twice. */
  lemma NeverBuildsOnOccupiedSite(p: Panel, sites: Sites, g: Economy.GameState, t: TowerType, prefab: Option<TowerData>)
    requires Consistent(p, sites) && p.hasPanelParent
    ensures var r := PlaceTower(p, sites, g, t, prefab);
            r.2 != g ==> !IsOccupied(sites[p.current.value])
  {
  }

  // ---------------------------------------------------------------- buttons

  /** A tower button is clickable when the gold it was last refreshed for
      covers its price; buttons never refreshed keep the scene's state, which
      is interactable. */
  predicate ButtonEnabled(p: Panel, t: TowerType)
  {
    p.buttonGold.Some? ==> p.buttonGold.value >= Cost(t)
  }

  /** A click on the button of type `t`. Unity delivers it to `PlaceTower`
      only while the button is interactable. */
  function PressButton(p: Panel, sites: Sites, g: Economy.GameState, t: TowerType, prefab: Option<TowerData>)
    : (r: (Panel, Sites, Economy.GameState))
    requires Addresses(p, sites)
    ensures !ButtonEnabled(p, t) ==> r == (p, sites, g)
    ensures ButtonEnabled(p, t) ==> r == PlaceTower(p, sites, g, t, prefab)
    ensures Consistent(p, sites) ==> Consistent(r.0, r.1)
  {
    if ButtonEnabled(p, t) then PlaceTower(p, sites, g, t, prefab) else (p, sites, g)
  }

  /** A purchase goes through exactly when the button was enabled for the
      gold at opening, there is a selection and a prefab, and the gold now
      still covers the price; it then costs exactly the price and occupies
      the selected site. */
  lemma PurchaseExactlyWhenEnabled(p: Panel, sites: Sites, g: Economy.GameState, t: TowerType, prefab: Option<TowerData>)
    requires Addresses(p, sites)
    ensures var r := PressButton(p, sites, g, t, prefab);
            r.2 != g <==> p.current.Some? && prefab.Some? && ButtonEnabled(p, t) && Economy.CanAfford(g, Cost(t))
    ensures var r := PressButton(p, sites, g, t, prefab);
            r.2 != g ==> g.gold - r.2.gold == Cost(t) && IsOccupied(r.1[p.current.value])
  {
  }

  datatype TextColor = White | Red

  /** `UpdateCostTextColor`, run every frame while the panel is open: white
      when affordable, red otherwise. */
  function CostTextColor(gold: int, cost: int): (c: TextColor)
    ensures c == White <==> gold >= cost
  {
    if gold >= cost then White else Red
  }

  /** When the panel opens, the buttons, the price colours and the
      manager's affordability check tell the player the same thing. */
  lemma ButtonsAgreeAtOpening(p: Panel, g: Economy.GameState, t: TowerType)
    requires !p.open && p.hasPanelParent
    ensures var r := OpenPanel(p, g.gold);
            ButtonEnabled(r, t) <==> CostTextColor(g.gold, Cost(t)) == White
    ensures ButtonEnabled(OpenPanel(p, g.gold), t) <==> Economy.CanAfford(g, Cost(t))
  {
  }

  /** The buttons are not refreshed while the panel stays open, but the
      colours are: gold earned after opening turns a price white while its
      button stays disabled, and a click on it buys nothing. */
  lemma StaleButtonAfterIncome(p: Panel, sites: Sites, g0: int, g: Economy.GameState, t: TowerType,
                               prefab: Option<TowerData>)
    requires !p.open && p.hasPanelParent && Addresses(p, sites)
    requires g0 < Cost(t) <= g.gold
    ensures var r := OpenPanel(p, g0);
            && CostTextColor(g.gold, Cost(t)) == White
            && Economy.CanAfford(g, Cost(t))
            && !ButtonEnabled(r, t)
            && PressButton(r, sites, g, t, prefab) == (r, sites, g)
  {
  }

  /** Conversely, gold spent elsewhere after opening leaves a button
      enabled whose price has turned red; a click then reaches `PlaceTower`,
      whose own check refuses the purchase. */
  lemma StaleButtonAfterSpending(p: Panel, sites: Sites, g0: int, g: Economy.GameState, t: TowerType,
                                 prefab: Option<TowerData>)
    requires !p.open && p.hasPanelParent && Addresses(p, sites)
    requires g.gold < Cost(t) <= g0
    ensures var r := OpenPanel(p, g0);
            && CostTextColor(g.gold, Cost(t)) == Red
            && ButtonEnabled(r, t)
            && PressButton(r, sites, g, t, prefab) == (r, sites, g)
  {
  }
}

=== FILE: projectiles.dfy ===
/** Projectile: flies at the target it was given and, on arrival, deals its
    damage once and may apply its tower's special effect. Flight geometry is
    abstracted: whether the projectile came within reach of its target this
    frame is passed in as `reached`, and `Random.value` as `roll`. */
module Projectiles {
  import opened Options
  import opened StatusEffects
  import opened Enemies
  import Towers
  import Economy

  /** What the projectile's target reference points at. */
  datatype Target = Missing | NotAnEnemy | EnemyTarget(unit: EnemyUnit)

  /** `Initialize`: the damage to deal. The projectile also keeps a reference
      to the TowerData of the tower that fired it; that component is read
      only when the projectile lands, so the functions below take the
      tower's data as it stands at that moment (`None` when the tower had no
      data or has been sold and destroyed since). */
  datatype Projectile = Projectile(damage: real)

  /** The effect a hit applies on a roll of `roll`, given the firing tower's
      current data: only from an unlocked tower, only when the roll is at
      most the tower's chance, and only when the tower has an effect at all. */
  function RolledEffect(tower: Option<Towers.TowerData>, roll: real): (r: Option<EffectData>)
    ensures r.Some? <==>
              && tower.Some? && Towers.HasSpecialAbility(tower.value)
              && roll <= tower.value.specialAbilityChance
              && Towers.SpecialEffect(tower.value).Some?
    ensures r.Some? ==> r == Towers.SpecialEffect(tower.value)
  {
    if tower.Some? && Towers.HasSpecialAbility(tower.value) && roll <= tower.value.specialAbilityChance
    then Towers.SpecialEffect(tower.value)
    else None
  }

  /** `HitTarget`: a live enemy takes the damage once, and then the rolled
      effect, if any; anything else is left alone. */
  function HitTarget(p: Projectile, tower: Option<Towers.TowerData>, target: Target, roll: real,
                     g: Economy.GameState, pick: nat)
    : (r: (Target, Economy.GameState))
    ensures !(target.EnemyTarget? && !target.unit.dead) ==> r == (target, g)
    ensures target.EnemyTarget? && !target.unit.dead ==>
              var hit := TakeDamage(target.unit, p.damage, g, pick);
              && r.0.EnemyTarget? && r.1 == hit.1
              && r.0.unit.health == target.unit.health - p.damage * DamageMultiplier(target.unit.effects)
              && r.0.unit.dead == hit.0.dead
              && (RolledEffect(tower, roll).None? ==> r.0.unit == hit.0)
              && (RolledEffect(tower, roll).Some? ==> r.0.unit == ApplyEffect(hit.0, RolledEffect(tower, roll).value))
    ensures target.EnemyTarget? && Valid(target.unit) ==> r.0.EnemyTarget? && Valid(r.0.unit)
  {
    match target
    case EnemyTarget(u) =>
      if u.dead then (target, g)
      else
        var hit := TakeDamage(u, p.damage, g, pick);
        var e := RolledEffect(tower, roll);
        if e.None? then (EnemyTarget(hit.0), hit.1)
        else (EnemyTarget(ApplyEffect(hit.0, e.value)), hit.1)
    case _ => (target, g)
  }

  /** One frame of `Update`: a projectile whose target is gone or dead is
      destroyed without touching anything; otherwise it flies, and on reaching
      the target hits it and is destroyed. `r.2` says whether it was
      destroyed. */
  function Update(p: Projectile, tower: Option<Towers.TowerData>, target: Target, reached: bool, roll: real,
                  g: Economy.GameState, pick: nat)
    : (r: (Target, Economy.GameState, bool))
    ensures target.Missing? || (target.EnemyTarget? && target.unit.dead) ==> r == (target, g, true)
    ensures r.2 <==> target.Missing? || (target.EnemyTarget? && target.unit.dead) || reached
    ensures !r.2 ==> (r.0, r.1) == (target, g)
    ensures r.2 && !target.Missing? && !(target.EnemyTarget? && target.unit.dead) ==>
              (r.0, r.1) == HitTarget(p, tower, target, roll, g, pick)
  {
    if target.Missing? then (target, g, true)
    else if target.EnemyTarget? && target.unit.dead then (target, g, true)
    else if reached then
      var h := HitTarget(p, tower, target, roll, g, pick);
      (h.0, h.1, true)
    else (target, g, false)
  }

  /** The tower is read when the projectile lands: a tower upgraded to its
      unlock level while the projectile was in flight applies its effect on
      a successful roll, although it could not when it fired. */
  lemma UpgradeInFlightUnlocksEffect(d: Towers.TowerData, roll: real)
    requires Towers.CanUpgrade(d) && d.currentLevel + 1 == d.specialAbilityUnlockLevel
    requires d.towerType != Towers.Warrior && roll <= d.specialAbilityChance
    ensures RolledEffect(Some(d), roll).None?
    ensures RolledEffect(Some(Towers.Upgrade(d)), roll) == Towers.SpecialEffect(Towers.Upgrade(d))
    ensures RolledEffect(Some(Towers.Upgrade(d)), roll).Some?
  {
  }

  /** A projectile whose tower has been sold while it was in flight still
      deals its damage, but applies no effect, whatever the roll. */
  lemma SoldTowerAppliesNoEffect(p: Projectile, u: EnemyUnit, roll: real, g: Economy.GameState, pick: nat)
    requires !u.dead
    ensures HitTarget(p, None, EnemyTarget(u), roll, g, pick) == (EnemyTarget(TakeDamage(u, p.damage, g, pick).0), TakeDamage(u, p.damage, g, pick).1)
  {
  }

  /** A projectile that hits a live enemy costs it exactly one hit of its
      damage, measured with the multiplier from before the hit: a curse this
      same hit applies does not amplify it. */
  lemma CurseAppliesAfterDamage(p: Projectile, tower: Option<Towers.TowerData>, u: EnemyUnit, roll: real,
                                 g: Economy.GameState, pick: nat)
    requires !u.dead && !Active(u.effects, Curse) && Resting(u.effects)
    ensures HitTarget(p, tower, EnemyTarget(u), roll, g, pick).0.unit.health == u.health - p.damage
  {
  }

  /** A Priest of level three or more whose roll succeeds curses its target,
      so the next projectile, from any tower, hits one and a half times as
      hard. */
  lemma PriestCurseAmplifiesNextHit(priest: Towers.TowerData, u: EnemyUnit, d1: real, d2: real,
                                    other: Option<Towers.TowerData>, roll1: real, roll2: real,
                                    g: Economy.GameState, pick1: nat, pick2: nat)
    requires priest.towerType == Towers.Priest && Towers.HasSpecialAbility(priest)
    requires roll1 <= priest.specialAbilityChance
    requires !u.dead
    ensures var first := HitTarget(Projectile(d1), Some(priest), EnemyTarget(u), roll1, g, pick1);
            !first.0.unit.dead ==>
              HitTarget(Projectile(d2), other, first.0, roll2, first.1, pick2).0.unit.health
                == first.0.unit.health - d2 * 1.5
  {
  }
}

=== FILE: status_effects.dfy ===
/** The bookkeeping of StatusEffectManager: one flag, one timer and the
    effect's parameters for each of the seven effect kinds, the
    kind-specific refresh rules, removal, and the derived queries (movement
    lock, speed factor, damage multiplier). What the manager does to its
    sibling components (the waypoint follower, the enemy) is modelled in
    module Enemies; this module is the ledger on its own. */
module StatusEffects {
  import opened Numeric

  datatype EffectKind = NoEffect | Stun | Poison | Bleeding | Freeze | Slow | Confusion | Curse

  /** `StatusEffectData`. The Curse amplification travels in
      `damagePerSecond` (see `ApplyEffect` in module Enemies). */
  datatype EffectData = EffectData(kind: EffectKind, duration: real, damagePerSecond: real, slowAmount: real)

  /** Time between two damage-over-time ticks. */
  const DotTickRate: real := 0.5

  /** The seven timed kinds, in the order the manager updates and clears them. */
  const TimedKinds: seq<EffectKind> := [Stun, Poison, Bleeding, Freeze, Slow, Confusion, Curse]

  /** The manager's state. Its seven flag-and-timer pairs are kept as one map
      from each active kind to its remaining time: a kind is active exactly
      when it has an entry, and a kind without an entry reads as timer zero,
      which is what the manager's cleared timers hold. The effect parameters
      and the next damage-over-time tick are kept as they are. */
  datatype Ledger = Ledger(
    timers: map<EffectKind, real>,
    poisonDps: real,
    bleedingDps: real,
    slowModifier: real,
    curseSlowModifier: real,
    freezeSlowModifier: real,
    curseDamageMultiplier: real,
    nextDotTick: real)

  /** The ledger of a newly spawned enemy. */
  function Fresh(): (l: Ledger)
    ensures Resting(l)
    ensures forall k :: !Active(l, k) && Timer(l, k) == 0.0
    ensures !IsStunned(l) && DamageMultiplier(l) == 1.0 && SpeedFactor(l) == 1.0
  {
    Ledger(map[], 0.0, 0.0, 1.0, 1.0, 1.0, 1.0, 0.0)
  }

  /** `NoEffect` is never active, and an effect that is not active holds
      neutral parameters. */
  predicate Resting(l: Ledger)
  {
    && NoEffect !in l.timers
    && (Poison !in l.timers ==> l.poisonDps == 0.0)
    && (Bleeding !in l.timers ==> l.bleedingDps == 0.0)
    && (Freeze !in l.timers ==> l.freezeSlowModifier == 1.0)
    && (Slow !in l.timers ==> l.slowModifier == 1.0)
    && (Curse !in l.timers ==> l.curseSlowModifier == 1.0 && l.curseDamageMultiplier == 1.0)
  }

  predicate Active(l: Ledger, k: EffectKind)
  {
    k in l.timers
  }

  /** The remaining time of kind `k`; zero when it is not active. */
  function Timer(l: Ledger, k: EffectKind): real
  {
    if k in l.timers then l.timers[k] else 0.0
  }

  /** Replaces the timer of an active kind `k` and nothing else. */
  function WithTimer(l: Ledger, k: EffectKind, t: real): (r: Ledger)
    requires Active(l, k)
    ensures Active(r, k) && Timer(r, k) == t
    ensures forall j :: j != k ==> Timer(r, j) == Timer(l, j)
    ensures forall j :: Active(r, j) == Active(l, j)
    ensures r.(timers := l.timers) == l
    ensures IsStunned(r) == IsStunned(l) && SpeedFactor(r) == SpeedFactor(l)
    ensures DamageMultiplier(r) == DamageMultiplier(l) && DotDamage(r) == DotDamage(l)
    ensures Resting(l) ==> Resting(r)
  {
    l.(timers := l.timers[k := t])
  }

  /** Sets the time of the next damage-over-time tick and nothing else. */
  function ScheduleDot(l: Ledger, at: real): (r: Ledger)
    ensures r.nextDotTick == at
    ensures r.(nextDotTick := l.nextDotTick) == l
    ensures forall j :: Active(r, j) == Active(l, j) && Timer(r, j) == Timer(l, j)
    ensures IsStunned(r) == IsStunned(l) && SpeedFactor(r) == SpeedFactor(l)
    ensures DamageMultiplier(r) == DamageMultiplier(l) && DotDamage(r) == DotDamage(l)
    ensures Resting(l) ==> Resting(r)
  {
    l.(nextDotTick := at)
  }

  // ---------------------------------------------------------------- queries

  /** Movement is locked by either of two independent locks. */
  predicate IsStunned(l: Ledger)
  {
    Active(l, Stun) || Active(l, Freeze)
  }

  function DamageMultiplier(l: Ledger): real
  {
    l.curseDamageMultiplier
  }

  /** The combined speed factor sent to the waypoint follower: the product of
      the slow, curse and freeze factors. */
  function SpeedFactor(l: Ledger): real
  {
    Product([l.slowModifier, l.curseSlowModifier, l.freezeSlowModifier])
  }

  /** The speed factor multiplies out to the three factors. */
  lemma SpeedFactorIsProduct(l: Ledger)
    ensures SpeedFactor(l) == l.slowModifier * l.curseSlowModifier * l.freezeSlowModifier
  {
    ProductOfThree(l.slowModifier, l.curseSlowModifier, l.freezeSlowModifier);
  }

  /** Damage dealt by one damage-over-time tick: half a second's worth of the
      poison and the bleeding rates, counting only the active ones. */
  function DotDamage(l: Ledger): (d: real)
    ensures !Active(l, Poison) && !Active(l, Bleeding) ==> d == 0.0
    ensures Active(l, Poison) && !Active(l, Bleeding) ==> d == l.poisonDps * DotTickRate
    ensures !Active(l, Poison) && Active(l, Bleeding) ==> d == l.bleedingDps * DotTickRate
    ensures Active(l, Poison) && Active(l, Bleeding) ==> d == (l.poisonDps + l.bleedingDps) * DotTickRate
    ensures l.poisonDps >= 0.0 && l.bleedingDps >= 0.0 ==> d >= 0.0
  {
    (if Active(l, Poison) then l.poisonDps * DotTickRate else 0.0)
    + (if Active(l, Bleeding) then l.bleedingDps * DotTickRate else 0.0)
  }

  /** Outside a curse the damage multiplier is exactly one. */
  lemma RestingMultiplier(l: Ledger)
    requires Resting(l) && !Active(l, Curse)
    ensures DamageMultiplier(l) == 1.0
  {
  }

  /** With no slow, curse or freeze active the speed factor is exactly one. */
  lemma RestingSpeedFactor(l: Ledger)
    requires Resting(l) && !Active(l, Slow) && !Active(l, Curse) && !Active(l, Freeze)
    ensures SpeedFactor(l) == 1.0
  {
    SpeedFactorIsProduct(l);
  }

  // ---------------------------------------------------------------- apply

  /** Stun overwrites its timer, even with a shorter duration. */
  function ApplyStun(l: Ledger, duration: real): (r: Ledger)
    ensures Active(r, Stun) && Timer(r, Stun) == duration && IsStunned(r)
    ensures forall j :: j != Stun ==> Active(r, j) == Active(l, j) && Timer(r, j) == Timer(l, j)
    ensures r.(timers := l.timers) == l
  {
    l.(timers := l.timers[Stun := duration])
  }

  /** Poison keeps the longer of the remaining and the new duration, and takes
      the latest rate. */
  function ApplyPoison(l: Ledger, duration: real, dps: real): (r: Ledger)
    ensures Active(r, Poison) && r.poisonDps == dps
    ensures Timer(r, Poison) >= duration && Timer(r, Poison) >= Timer(l, Poison)
    ensures Timer(r, Poison) == duration || Timer(r, Poison) == Timer(l, Poison)
    ensures forall j :: j != Poison ==> Active(r, j) == Active(l, j) && Timer(r, j) == Timer(l, j)
    ensures r.(timers := l.timers, poisonDps := l.poisonDps) == l
  {
    l.(timers := l.timers[Poison := Max(Timer(l, Poison), duration)], poisonDps := dps)
  }

  /** Bleeding refreshes like poison: longer duration, latest rate. */
  function ApplyBleeding(l: Ledger, duration: real, dps: real): (r: Ledger)
    ensures Active(r, Bleeding) && r.bleedingDps == dps
    ensures Timer(r, Bleeding) >= duration && Timer(r, Bleeding) >= Timer(l, Bleeding)
    ensures Timer(r, Bleeding) == duration || Timer(r, Bleeding) == Timer(l, Bleeding)
    ensures forall j :: j != Bleeding ==> Active(r, j) == Active(l, j) && Timer(r, j) == Timer(l, j)
    ensures r.(timers := l.timers, bleedingDps := l.bleedingDps) == l
  {
    l.(timers := l.timers[Bleeding := Max(Timer(l, Bleeding), duration)], bleedingDps := dps)
  }

  /** Freeze overwrites its timer, locks movement and sets its own slow factor. */
  function ApplyFreeze(l: Ledger, duration: real, slowAmount: real): (r: Ledger)
    ensures Active(r, Freeze) && Timer(r, Freeze) == duration && IsStunned(r)
    ensures r.freezeSlowModifier == 1.0 - slowAmount
    ensures forall j :: j != Freeze ==> Active(r, j) == Active(l, j) && Timer(r, j) == Timer(l, j)
    ensures r.(timers := l.timers, freezeSlowModifier := l.freezeSlowModifier) == l
  {
    l.(timers := l.timers[Freeze := duration], freezeSlowModifier := 1.0 - slowAmount)
  }

  /** Slow keeps the longer duration and takes the latest slow amount. */
  function ApplySlow(l: Ledger, duration: real, slowAmount: real): (r: Ledger)
    ensures Active(r, Slow) && r.slowModifier == 1.0 - slowAmount
    ensures Timer(r, Slow) >= duration && Timer(r, Slow) >= Timer(l, Slow)
    ensures Timer(r, Slow) == duration || Timer(r, Slow) == Timer(l, Slow)
    ensures forall j :: j != Slow ==> Active(r, j) == Active(l, j) && Timer(r, j) == Timer(l, j)
    ensures r.(timers := l.timers, slowModifier := l.slowModifier) == l
  {
    l.(timers := l.timers[Slow := Max(Timer(l, Slow), duration)], slowModifier := 1.0 - slowAmount)
  }

  /** Confusion overwrites its timer. */
  function ApplyConfusion(l: Ledger, duration: real): (r: Ledger)
    ensures Active(r, Confusion) && Timer(r, Confusion) == duration
    ensures forall j :: j != Confusion ==> Active(r, j) == Active(l, j) && Timer(r, j) == Timer(l, j)
    ensures r.(timers := l.timers) == l
  {
    l.(timers := l.timers[Confusion := duration])
  }

  /** Curse overwrites its timer, slows by `slowAmount` and amplifies incoming
      damage by `amplification`. */
  function ApplyCurse(l: Ledger, duration: real, slowAmount: real, amplification: real): (r: Ledger)
    ensures Active(r, Curse) && Timer(r, Curse) == duration
    ensures r.curseSlowModifier == 1.0 - slowAmount
    ensures DamageMultiplier(r) == 1.0 + amplification
    ensures forall j :: j != Curse ==> Active(r, j) == Active(l, j) && Timer(r, j) == Timer(l, j)
    ensures r.(timers := l.timers, curseSlowModifier := l.curseSlowModifier,
               curseDamageMultiplier := l.curseDamageMultiplier) == l
  {
    l.(timers := l.timers[Curse := duration], curseSlowModifier := 1.0 - slowAmount,
       curseDamageMultiplier := 1.0 + amplification)
  }

  // ---------------------------------------------------------------- remove

  /** Ends effect `k`: no longer active, timer zero, its parameters back to
      neutral. Every other kind is left as it was. */
  function Remove(l: Ledger, k: EffectKind): (r: Ledger)
    ensures !Active(r, k) && Timer(r, k) == 0.0
    ensures forall j :: j != k ==> Active(r, j) == Active(l, j) && Timer(r, j) == Timer(l, j)
    ensures Resting(l) ==> Resting(r)
    ensures r.nextDotTick == l.nextDotTick
    ensures k != Curse ==> DamageMultiplier(r) == DamageMultiplier(l)
    ensures k == Curse ==> DamageMultiplier(r) == 1.0
    ensures k == Poison ==> r.poisonDps == 0.0
    ensures k == Bleeding ==> r.bleedingDps == 0.0
    ensures k == Slow ==> r.slowModifier == 1.0
    ensures k == Curse ==> r.curseSlowModifier == 1.0
    ensures k == Freeze ==> r.freezeSlowModifier == 1.0
    ensures k != Poison ==> r.poisonDps == l.poisonDps
    ensures k != Bleeding ==> r.bleedingDps == l.bleedingDps
    ensures k != Slow ==> r.slowModifier == l.slowModifier
    ensures k != Curse ==> r.curseSlowModifier == l.curseSlowModifier
    ensures k != Freeze ==> r.freezeSlowModifier == l.freezeSlowModifier
  {
    l.(timers := l.timers - {k},
       poisonDps := if k == Poison then 0.0 else l.poisonDps,
       bleedingDps := if k == Bleeding then 0.0 else l.bleedingDps,
       slowModifier := if k == Slow then 1.0 else l.slowModifier,
       curseSlowModifier := if k == Curse then 1.0 else l.curseSlowModifier,
       freezeSlowModifier := if k == Freeze then 1.0 else l.freezeSlowModifier,
       curseDamageMultiplier := if k == Curse then 1.0 else l.curseDamageMultiplier)
  }

  /** The movement lock lifts on removing one lock only when the other lock is
      not held. */
  lemma RemovingOneLock(l: Ledger)
    ensures IsStunned(Remove(l, Stun)) <==> Active(l, Freeze)
    ensures IsStunned(Remove(l, Freeze)) <==> Active(l, Stun)
  {
  }

  /** Removing a slowing effect resets its factor, so the combined factor is
      the product of the two that remain. */
  lemma RemovalResetsSpeedFactor(l: Ledger)
    ensures SpeedFactor(Remove(l, Slow)) == l.curseSlowModifier * l.freezeSlowModifier
    ensures SpeedFactor(Remove(l, Curse)) == l.slowModifier * l.freezeSlowModifier
    ensures SpeedFactor(Remove(l, Freeze)) == l.slowModifier * l.curseSlowModifier
  {
    SpeedFactorIsProduct(Remove(l, Slow));
    SpeedFactorIsProduct(Remove(l, Curse));
    SpeedFactorIsProduct(Remove(l, Freeze));
  }

  /** Refreshing poison with a longer duration and a new rate: one poison,
      the longer duration, the new rate (the documented example 3 s at 5 then
      5 s at 8). */
  lemma PoisonRefreshExample()
    ensures var l := ApplyPoison(ApplyPoison(Fresh(), 3.0, 5.0), 5.0, 8.0);
            Active(l, Poison) && Timer(l, Poison) == 5.0 && l.poisonDps == 8.0
  {
  }
}

=== FILE: tower_combat.dfy ===
/** Tower: the stats copied from the tower's TowerData, target selection, the
    fire countdown and the attack-direction sector. The scene query for
    enemies becomes an explicit list of candidates in the order the query
    returns them, each with its distance to the tower already measured. */
module TowerCombat {
  import opened Options
  import opened Towers

  datatype Tower = Tower(data: TowerData, range: real, fireRate: real, damage: real, fireCountdown: real)

  /** `ApplyStats`: the stats the tower fights with are the data's current
      ones. */
  function ApplyStats(t: Tower): (r: Tower)
    ensures r.range == CurrentRange(t.data) && r.fireRate == CurrentFireRate(t.data)
    ensures r.damage == CurrentDamage(t.data)
    ensures r.data == t.data && r.fireCountdown == t.fireCountdown
  {
    t.(range := CurrentRange(t.data), fireRate := CurrentFireRate(t.data), damage := CurrentDamage(t.data))
  }

  /** `Start`: a new tower with its data's stats and a countdown of zero, so
      it fires as soon as it has a target. */
  function Build(d: TowerData): (t: Tower)
    ensures InStep(t) && t.data == d && t.fireCountdown == 0.0
    ensures Sane(d) ==> t.fireRate > 0.0
  {
    ApplyStats(Tower(d, 0.0, 0.0, 0.0, 0.0))
  }

  /** The tower's stats agree with its data. */
  predicate InStep(t: Tower)
  {
    t.range == CurrentRange(t.data) && t.fireRate == CurrentFireRate(t.data) && t.damage == CurrentDamage(t.data)
  }

  /** `TowerData.Upgrade` followed by the `ApplyStats` it triggers on the
      tower: below the cap the level rises and each stat grows by one step;
      at the cap nothing changes. */
  function UpgradeTower(t: Tower): (r: Tower)
    ensures CanUpgrade(t.data) || InStep(t) ==> InStep(r)
    ensures r.data == Upgrade(t.data) && r.fireCountdown == t.fireCountdown
    ensures !CanUpgrade(t.data) ==> r == t
    ensures InStep(t) && CanUpgrade(t.data) ==>
              && r.range == t.range + t.data.rangePerLevel
              && r.damage == t.damage + t.data.damagePerLevel
              && r.fireRate == t.fireRate + t.data.fireRatePerLevel
  {
    if CanUpgrade(t.data) then
      UpgradeAddsOneStep(t.data);
      ApplyStats(t.(data := Upgrade(t.data)))
    else t
  }

  // ---------------------------------------------------------------- targeting

  /** An object tagged as an enemy: its distance to the tower, whether it has
      an Enemy component, and whether that enemy is dead. */
  datatype Candidate = Candidate(distance: real, hasEnemy: bool, dead: bool)

  /** A candidate the tower may shoot at. */
  predicate Targetable(c: Candidate, range: real)
  {
    c.distance <= range && c.hasEnemy && !c.dead
  }

  /** Index `i` is the target `FindClosestEnemy` should pick among the first
      `n` candidates: targetable, no targetable candidate nearer, and every
      earlier targetable candidate strictly farther. */
  predicate ClosestAmong(cs: seq<Candidate>, range: real, n: nat, i: nat)
    requires n <= |cs|
  {
    && i < n
    && Targetable(cs[i], range)
    && (forall j :: 0 <= j < n && Targetable(cs[j], range) ==> cs[i].distance <= cs[j].distance)
    && (forall j :: 0 <= j < i && Targetable(cs[j], range) ==> cs[i].distance < cs[j].distance)
  }

  /** The reference definition: the pick after looking at the first `n`
      candidates, a later candidate replacing the pick only when strictly
      nearer. */
  function ClosestUpTo(cs: seq<Candidate>, range: real, n: nat): (r: Option<nat>)
    requires n <= |cs|
    ensures r.Some? ==> ClosestAmong(cs, range, n, r.value)
    ensures r.None? <==> forall j :: 0 <= j < n ==> !Targetable(cs[j], range)
    decreases n
  {
    if n == 0 then None
    else
      var p := ClosestUpTo(cs, range, n - 1);
      var c := cs[n - 1];
      if Targetable(c, range) && (p.None? || c.distance < cs[p.value].distance) then Some(n - 1)
      else p
  }

  /** There is only one right answer: any index meeting the description is
      the one the reference definition gives. */
  lemma ClosestIsUnique(cs: seq<Candidate>, range: real, n: nat, i: nat)
    requires n <= |cs|
    requires ClosestAmong(cs, range, n, i)
    ensures ClosestUpTo(cs, range, n) == Some(i)
  {
  }

  /** `FindClosestEnemy`: one pass over the candidates, keeping the nearest
      targetable one seen so far; `None` when nothing is in range and alive. */
  method FindClosestEnemy(cs: seq<Candidate>, range: real) returns (closest: Option<nat>)
    ensures closest.Some? ==> ClosestAmong(cs, range, |cs|, closest.value)
    ensures closest.None? <==> forall j :: 0 <= j < |cs| ==> !Targetable(cs[j], range)
    ensures closest == ClosestUpTo(cs, range, |cs|)
  {
    closest := None;
    var minDistance: Option<real> := None;
    var i := 0;
    while i < |cs|
      invariant 0 <= i <= |cs|
      invariant closest == ClosestUpTo(cs, range, i)
      invariant closest.None? <==> minDistance.None?
      invariant closest.Some? ==> minDistance == Some(cs[closest.value].distance)
    {
      var d := cs[i].distance;
      if d <= range && (minDistance.None? || d < minDistance.value) {
        if cs[i].hasEnemy && !cs[i].dead {
          minDistance := Some(d);
          closest := Some(i);
        }
      }
      i := i + 1;
    }
  }

  /** The rule as stated over the whole list: a dead candidate is never the
      target, and of two targetable candidates at the same distance the
      earlier one wins. */
  lemma TieGoesToEarliest(cs: seq<Candidate>, range: real, a: nat, b: nat)
    requires a < b < |cs|
    requires Targetable(cs[a], range) && Targetable(cs[b], range)
    requires cs[a].distance == cs[b].distance
    ensures ClosestUpTo(cs, range, |cs|) != Some(b)
  {
  }

  // ---------------------------------------------------------------- firing

  /** One frame of `Update` after targeting: with a target and the countdown
      at zero or below the tower shoots and reloads to `1 / fireRate`; the
      countdown then runs down by `dt`. `fired` says whether `Shoot` ran. */
  function Fire(t: Tower, hasTarget: bool, dt: real): (r: (Tower, bool))
    requires t.fireRate > 0.0
    ensures r.1 <==> hasTarget && t.fireCountdown <= 0.0
    ensures r.1 ==> r.0.fireCountdown == 1.0 / t.fireRate - dt
    ensures !r.1 ==> r.0.fireCountdown == t.fireCountdown - dt
    ensures r.0.(fireCountdown := t.fireCountdown) == t
  {
    var shoot := hasTarget && t.fireCountdown <= 0.0;
    var c := if shoot then 1.0 / t.fireRate else t.fireCountdown;
    (t.(fireCountdown := c - dt), shoot)
  }

  /** A run of frames with a fixed frame time; `targets[i]` says whether the
      tower found a target in frame `i`. The result counts the shots. */
  function Frames(t: Tower, targets: seq<bool>, dt: real): (r: (Tower, nat))
    requires t.fireRate > 0.0
    ensures r.0.fireRate == t.fireRate
    decreases |targets|
  {
    if targets == [] then (t, 0)
    else
      var f := Fire(t, targets[0], dt);
      var rest := Frames(f.0, targets[1..], dt);
      (rest.0, rest.1 + (if f.1 then 1 else 0))
  }

  /** The tower cannot shoot again until its countdown has run out: while the
      remaining countdown outlasts the frames before the last one, no shot is
      fired, whatever the targets. */
  lemma {:induction false} NoShotWhileReloading(t: Tower, targets: seq<bool>, dt: real)
    requires t.fireRate > 0.0 && dt >= 0.0
    requires |targets| > 0 ==> t.fireCountdown > dt * (|targets| - 1) as real
    ensures Frames(t, targets, dt).1 == 0
    ensures Frames(t, targets, dt).0.fireCountdown == t.fireCountdown - dt * |targets| as real
    decreases |targets|
  {
    if targets != [] {
      var n := |targets| - 1;
      assert dt * n as real >= 0.0;
      var f := Fire(t, targets[0], dt);
      assert !f.1;
      if n > 0 {
        assert dt * (n - 1) as real == dt * n as real - dt;
      }
      NoShotWhileReloading(f.0, targets[1..], dt);
      assert dt * |targets| as real == dt * n as real + dt;
    }
  }

  /** A tower that has a target every frame shoots in the first frame its
      countdown has run out, and then reloads. */
  lemma ShootsWhenReady(t: Tower, dt: real)
    requires t.fireRate > 0.0 && t.fireCountdown <= 0.0
    ensures Frames(t, [true], dt).1 == 1
    ensures Frames(t, [true], dt).0.fireCountdown == 1.0 / t.fireRate - dt
  {
  }

  // ---------------------------------------------------------------- direction

  datatype Direction = Right | Up | Left | Down

  /** The attack animation for an angle in degrees. */
  function Sector(angle: real): (d: Direction)
  {
    if -45.0 <= angle < 45.0 then Right
    else if 45.0 <= angle < 135.0 then Up
    else if angle >= 135.0 || angle < -135.0 then Left
    else Down
  }

  /** Each direction is exactly one arc of angles, and the four arcs do not
      overlap and leave no angle out. */
  lemma SectorArcs(angle: real)
    ensures Sector(angle) == Right <==> -45.0 <= angle < 45.0
    ensures Sector(angle) == Up <==> 45.0 <= angle < 135.0
    ensures Sector(angle) == Left <==> angle >= 135.0 || angle < -135.0
    ensures Sector(angle) == Down <==> -135.0 <= angle < -45.0
  {
  }

  /** Turning a quarter turn anticlockwise from the right-hand, upper or
      lower arc lands in the next arc. */
  lemma QuarterTurn(angle: real)
    ensures Sector(angle) == Right ==> Sector(angle + 90.0) == Up
    ensures Sector(angle) == Up ==> Sector(angle + 90.0) == Left
    ensures Sector(angle) == Down ==> Sector(angle + 90.0) == Right
  {
  }
}

=== FILE: towers.dfy ===
/** TowerData: a tower's type, level and the stats and upgrade prices that
    follow from them. Every inspector field is a field of `TowerData`, so the
    rules hold for any configuration; `Default` is the configuration the
    component ships with. */
module Towers {
  import opened Options
  import opened StatusEffects

  datatype TowerType = Hunter | Jester | Lumberjack | Priest | Alchemist | Warrior

  const FallbackUpgradeCost: int := 999

  datatype TowerData = TowerData(
    towerType: TowerType,
    currentLevel: int,
    maxLevel: int,
    baseRange: real,
    baseDamage: real,
    baseFireRate: real,
    upgradeCosts: seq<int>,
    rangePerLevel: real,
    damagePerLevel: real,
    fireRatePerLevel: real,
    specialAbilityChance: real,
    specialAbilityUnlockLevel: int)

  /** The component's defaults for a tower of type `t`. */
  function Default(t: TowerType): (d: TowerData)
    ensures d.towerType == t && d.currentLevel == 1 && d.currentLevel <= d.maxLevel
    ensures CurrentRange(d) == 3.0 && CurrentDamage(d) == 10.0 && CurrentFireRate(d) == 1.0
    ensures CanUpgrade(d) && UpgradeCost(d) == 50
    ensures !HasSpecialAbility(d) && SpecialEffect(d).None?
    ensures Sane(d)
  {
    TowerData(t, 1, 5, 3.0, 10.0, 1.0, [50, 100, 150, 200], 0.5, 5.0, 0.2, 0.3, 3)
  }

  /** A configuration whose stats never shrink with level and whose level has
      not run past the cap. */
  predicate Sane(d: TowerData)
  {
    && 1 <= d.currentLevel <= d.maxLevel
    && d.baseFireRate > 0.0
    && d.rangePerLevel >= 0.0 && d.damagePerLevel >= 0.0 && d.fireRatePerLevel >= 0.0
  }

  /** A stat that starts at `base` on level one and grows by `perLevel` with
      every level after it. */
  function LevelStat(base: real, perLevel: real, level: int): (r: real)
    ensures level == 1 ==> r == base
    ensures perLevel >= 0.0 && level >= 1 ==> r >= base
  {
    base + perLevel * (level - 1) as real
  }

  /** One more level adds exactly one step of the stat. */
  lemma LevelStatStep(base: real, perLevel: real, level: int)
    ensures LevelStat(base, perLevel, level + 1) == LevelStat(base, perLevel, level) + perLevel
  {
  }

  function CurrentRange(d: TowerData): (r: real)
    ensures d.currentLevel == 1 ==> r == d.baseRange
    ensures Sane(d) ==> r >= d.baseRange
  {
    LevelStat(d.baseRange, d.rangePerLevel, d.currentLevel)
  }

  function CurrentDamage(d: TowerData): (r: real)
    ensures d.currentLevel == 1 ==> r == d.baseDamage
    ensures Sane(d) ==> r >= d.baseDamage
  {
    LevelStat(d.baseDamage, d.damagePerLevel, d.currentLevel)
  }

  /** The fire rate of a sane configuration is positive, so the firing
      interval `1 / rate` is defined. */
  function CurrentFireRate(d: TowerData): (r: real)
    ensures d.currentLevel == 1 ==> r == d.baseFireRate
    ensures Sane(d) ==> r >= d.baseFireRate > 0.0
  {
    LevelStat(d.baseFireRate, d.fireRatePerLevel, d.currentLevel)
  }

  predicate CanUpgrade(d: TowerData)
  {
    d.currentLevel < d.maxLevel
  }

  /** The price of the next level: nothing at the cap, the table entry for the
      next level when the table has one, and the fallback price otherwise. */
  function UpgradeCost(d: TowerData): (r: int)
    ensures !CanUpgrade(d) ==> r == 0
    ensures CanUpgrade(d) && 0 <= d.currentLevel - 1 < |d.upgradeCosts| ==> r == d.upgradeCosts[d.currentLevel - 1]
    ensures CanUpgrade(d) && !(0 <= d.currentLevel - 1 < |d.upgradeCosts|) ==> r == FallbackUpgradeCost
  {
    if d.currentLevel >= d.maxLevel then 0
    else
      var i := d.currentLevel - 1;
      if 0 <= i < |d.upgradeCosts| then d.upgradeCosts[i] else FallbackUpgradeCost
  }

  /** Every price is one of the table's, zero or the fallback. */
  lemma UpgradeCostIsListed(d: TowerData)
    ensures UpgradeCost(d) == 0 || UpgradeCost(d) == FallbackUpgradeCost || UpgradeCost(d) in d.upgradeCosts
  {
  }

  /** Raises the level by one below the cap and does nothing at it. */
  function Upgrade(d: TowerData): (r: TowerData)
    ensures CanUpgrade(d) ==> r.currentLevel == d.currentLevel + 1
    ensures !CanUpgrade(d) ==> r == d
    ensures r.(currentLevel := d.currentLevel) == d
    ensures d.currentLevel <= d.maxLevel ==> r.currentLevel <= r.maxLevel
    ensures Sane(d) ==> Sane(r)
  {
    if CanUpgrade(d) then d.(currentLevel := d.currentLevel + 1) else d
  }

  /** An upgrade adds exactly one step to each stat. */
  lemma UpgradeAddsOneStep(d: TowerData)
    requires CanUpgrade(d)
    ensures CurrentRange(Upgrade(d)) == CurrentRange(d) + d.rangePerLevel
    ensures CurrentDamage(Upgrade(d)) == CurrentDamage(d) + d.damagePerLevel
    ensures CurrentFireRate(Upgrade(d)) == CurrentFireRate(d) + d.fireRatePerLevel
  {
  }

  /** `n` presses of the upgrade button. */
  function UpgradeTimes(d: TowerData, n: nat): TowerData
    decreases n
  {
    if n == 0 then d else UpgradeTimes(Upgrade(d), n - 1)
  }

  /** However often a tower is upgraded, its level climbs one at a time and
      stops at the cap: `n` upgrades from a level at or below the cap give
      the smaller of `level + n` and the cap. */
  lemma {:induction false} UpgradesStopAtCap(d: TowerData, n: nat)
    requires d.currentLevel <= d.maxLevel
    ensures UpgradeTimes(d, n).currentLevel <= d.maxLevel
    ensures d.currentLevel + n <= d.maxLevel ==> UpgradeTimes(d, n).currentLevel == d.currentLevel + n
    ensures d.currentLevel + n > d.maxLevel ==> UpgradeTimes(d, n).currentLevel == d.maxLevel
    ensures UpgradeTimes(d, n).(currentLevel := d.currentLevel) == d
    decreases n
  {
    if n > 0 {
      UpgradesStopAtCap(Upgrade(d), n - 1);
    }
  }

  predicate HasSpecialAbility(d: TowerData)
  {
    d.currentLevel >= d.specialAbilityUnlockLevel
  }

  /** The effect a projectile of this tower may apply: none before the unlock
      level and none for the Warrior; the Alchemist switches from poison to
      freeze at level four. */
  function SpecialEffect(d: TowerData): (r: Option<EffectData>)
    ensures !HasSpecialAbility(d) || d.towerType == Warrior ==> r.None?
    ensures HasSpecialAbility(d) && d.towerType != Warrior ==> r.Some?
    ensures r.Some? ==> r.value.kind != NoEffect && r.value.duration > 0.0
    ensures r.Some? && d.towerType == Alchemist ==> (r.value.kind == Freeze <==> d.currentLevel >= 4)
  {
    if !HasSpecialAbility(d) then None
    else
      match d.towerType
      case Hunter => Some(EffectData(Stun, 1.5, 0.0, 0.0))
      case Jester => Some(EffectData(Confusion, 3.0, 0.0, 0.0))
      case Lumberjack => Some(EffectData(Bleeding, 4.0, 5.0, 0.0))
      case Priest => Some(EffectData(Curse, 3.0, 0.5, 0.3))
      case Alchemist =>
        if d.currentLevel >= 4 then Some(EffectData(Freeze, 2.0, 0.0, 0.5))
        else Some(EffectData(Poison, 5.0, 8.0, 0.0))
      case Warrior => None
  }

  /** Which kind of effect each tower type brings: the types other than the
      Alchemist and the Warrior each have one kind of their own. */
  function SignatureKind(t: TowerType, level: int): (k: EffectKind)
  {
    match t
    case Hunter => Stun
    case Jester => Confusion
    case Lumberjack => Bleeding
    case Priest => Curse
    case Alchemist => if level >= 4 then Freeze else Poison
    case Warrior => NoEffect
  }

  /** An unlocked tower's effect is its type's signature kind, and no two
      different types share a signature kind at the same level. */
  lemma SpecialEffectBySignature(d: TowerData, e: TowerData)
    requires HasSpecialAbility(d) && d.towerType != Warrior
    ensures SpecialEffect(d).value.kind == SignatureKind(d.towerType, d.currentLevel)
    ensures e.towerType != d.towerType && e.currentLevel == d.currentLevel ==>
              SignatureKind(e.towerType, e.currentLevel) != SignatureKind(d.towerType, d.currentLevel)
  {
  }

  /** The effect values each type carries. */
  lemma SpecialEffectValues(d: TowerData)
    requires HasSpecialAbility(d)
    ensures d.towerType == Hunter ==> SpecialEffect(d) == Some(EffectData(Stun, 1.5, 0.0, 0.0))
    ensures d.towerType == Jester ==> SpecialEffect(d) == Some(EffectData(Confusion, 3.0, 0.0, 0.0))
    ensures d.towerType == Lumberjack ==> SpecialEffect(d) == Some(EffectData(Bleeding, 4.0, 5.0, 0.0))
    ensures d.towerType == Priest ==> SpecialEffect(d) == Some(EffectData(Curse, 3.0, 0.5, 0.3))
    ensures d.towerType == Alchemist && d.currentLevel >= 4 ==> SpecialEffect(d) == Some(EffectData(Freeze, 2.0, 0.0, 0.5))
    ensures d.towerType == Alchemist && d.currentLevel < 4 ==> SpecialEffect(d) == Some(EffectData(Poison, 5.0, 8.0, 0.0))
  {
  }

  /** With the default configuration a tower gains its effect on its second
      upgrade, and the prices of levels two to five are 50, 100, 150, 200. */
  lemma DefaultProgression(t: TowerType)
    ensures !HasSpecialAbility(UpgradeTimes(Default(t), 1))
    ensures HasSpecialAbility(UpgradeTimes(Default(t), 2))
    ensures forall n: nat :: n < 4 ==> UpgradeCost(UpgradeTimes(Default(t), n)) == 50 * (n + 1)
    ensures UpgradeCost(UpgradeTimes(Default(t), 4)) == 0
  {
  }
}

=== FILE: upgrade_panel.dfy ===
/** TowerUpgradePanel: touching an occupied build site opens the panel for
    the tower standing there, which can then be upgraded or sold. A sale
    refunds 70% of everything invested in the tower: its base price and the
    table prices of the levels it gained. */
module UpgradePanel {
  import opened Numeric
  import opened Options
  import opened Towers
  import opened BuildSites
  import TowerCombat
  import Placement
  import Economy

  /** `GetTowerBaseCost`: the price the panel assumes the tower was bought
      for. */
  function BaseCost(t: TowerType): (c: int)
    ensures c > 0
  {
    match t
    case Hunter => 100
    case Jester => 120
    case Lumberjack => 150
    case Priest => 180
    case Alchemist => 140
    case Warrior => 160
  }

  /** The panel's base prices are the build panel's default prices. */
  lemma BaseCostMatchesPlacement(t: TowerType)
    ensures BaseCost(t) == Placement.Cost(t)
  {
  }

  /** What was paid for the first `n` upgrades: the table prices, with levels
      past the end of the table counted as free. */
  function UpgradesPaid(costs: seq<int>, n: int): (r: int)
    ensures n <= 0 ==> r == 0
    ensures (forall i :: 0 <= i < |costs| ==> costs[i] >= 0) ==> r >= 0
    decreases n
  {
    if n <= 0 then 0
    else UpgradesPaid(costs, n - 1) + (if n - 1 < |costs| then costs[n - 1] else 0)
  }

  /** The table prices of a tower that has climbed to the end of its table
      add up to the whole table. */
  lemma {:induction false} UpgradesPaidWholeTable(costs: seq<int>, n: int)
    requires n >= |costs|
    ensures UpgradesPaid(costs, n) == UpgradesPaid(costs, |costs|)
    decreases n
  {
    if n > |costs| {
      UpgradesPaidWholeTable(costs, n - 1);
    }
  }

  /** Everything invested in a tower at its current level. */
  function Invested(d: TowerData): int
  {
    BaseCost(d.towerType) + UpgradesPaid(d.upgradeCosts, d.currentLevel - 1)
  }

  /** The loop of `CalculateSellValue` that totals the investment. */
  method TotalInvestment(d: TowerData) returns (total: int)
    ensures total == Invested(d)
    ensures d.currentLevel <= 1 ==> total == BaseCost(d.towerType)
  {
    total := BaseCost(d.towerType);
    var i := 1;
    while i < d.currentLevel
      invariant 1 <= i && (i <= d.currentLevel || i == 1)
      invariant total == BaseCost(d.towerType) + UpgradesPaid(d.upgradeCosts, i - 1)
      decreases d.currentLevel - i
    {
      if i - 1 < |d.upgradeCosts| {
        total := total + d.upgradeCosts[i - 1];
      }
      i := i + 1;
    }
    if d.currentLevel < 1 {
      assert UpgradesPaid(d.upgradeCosts, d.currentLevel - 1) == 0;
    }
  }

  /** The refund for selling: 70% of the investment, rounded. */
  function SellValue(d: TowerData): (v: int)
    ensures Invested(d) as real * 0.7 - 0.5 <= v as real <= Invested(d) as real * 0.7 + 0.5
  {
    RoundToInt(Invested(d) as real * 0.7)
  }

  /** A tower still on its first level refunds from its base price alone;
      the six refunds are 70, 84, 105, 126, 98 and 112. */
  lemma SellAtLevelOne(d: TowerData)
    requires d.currentLevel <= 1
    ensures SellValue(d) == RoundToInt(BaseCost(d.towerType) as real * 0.7)
    ensures d.towerType == Hunter ==> SellValue(d) == 70
    ensures d.towerType == Jester ==> SellValue(d) == 84
    ensures d.towerType == Lumberjack ==> SellValue(d) == 105
    ensures d.towerType == Priest ==> SellValue(d) == 126
    ensures d.towerType == Alchemist ==> SellValue(d) == 98
    ensures d.towerType == Warrior ==> SellValue(d) == 112
  {
  }

  /** Selling never gives back what was spent: a tower worth at least two
      gold refunds strictly less than its investment. */
  lemma SellRefundsLess(d: TowerData)
    requires Invested(d) >= 2
    ensures SellValue(d) < Invested(d)
  {
  }

  /** An upgrade priced from the table adds exactly its price to the
      investment, so the next sale refunds 70% of it too. */
  lemma UpgradeAddsPriceToInvestment(d: TowerData)
    requires CanUpgrade(d) && 1 <= d.currentLevel && d.currentLevel - 1 < |d.upgradeCosts|
    ensures Invested(Upgrade(d)) == Invested(d) + UpgradeCost(d)
  {
  }

  /** An upgrade charged at the fallback price because the table has run out
      adds nothing to the investment: the 999 gold are not refunded. */
  lemma FallbackPriceIsNotRefunded(d: TowerData)
    requires CanUpgrade(d) && d.currentLevel - 1 >= |d.upgradeCosts|
    ensures UpgradeCost(d) == FallbackUpgradeCost
    ensures Invested(Upgrade(d)) == Invested(d)
  {
  }

  // ---------------------------------------------------------------- the panel

  /** The panel's state: whether it is open, the selected site, and the
      upgrade button's interactable flag as `UpdatePanelInfo` last wrote it
      (the scene's state, interactable, before the first opening). */
  datatype Panel = Panel(open: bool, current: Option<nat>, upgradeEnabled: bool)

  function Start(): (p: Panel)
    ensures !p.open && p.current.None? && p.upgradeEnabled
  {
    Panel(false, None, true)
  }

  /** The selection points at an existing site. */
  predicate Addresses(p: Panel, sites: Placement.Sites)
  {
    p.current.Some? ==> p.current.value < |sites|
  }

  /** The tower standing on site `i`, if any. */
  function TowerAt(sites: Placement.Sites, i: nat): (r: Option<TowerCombat.Tower>)
    requires i < |sites|
  {
    PlacedTower(sites[i])
  }

  /** What `UpdatePanelInfo` makes the upgrade button: clickable when the
      tower can still level up and the player can pay the price. */
  predicate UpgradeButtonEnabled(d: TowerData, g: Economy.GameState)
  {
    CanUpgrade(d) && Economy.CanAfford(g, UpgradeCost(d))
  }

  /** `UpdatePanelInfo`: with a selected tower, the upgrade button is set
      from that tower and the current gold; the texts it also writes are
      presentation. */
  function UpdatePanelInfo(p: Panel, sites: Placement.Sites, g: Economy.GameState): (r: Panel)
    requires Addresses(p, sites)
    ensures p.current.Some? && TowerAt(sites, p.current.value).Some? ==>
              r.upgradeEnabled == UpgradeButtonEnabled(TowerAt(sites, p.current.value).value.data, g)
    ensures !(p.current.Some? && TowerAt(sites, p.current.value).Some?) ==> r == p
    ensures r.open == p.open && r.current == p.current
  {
    if p.current.Some? && TowerAt(sites, p.current.value).Some? then
      p.(upgradeEnabled := UpgradeButtonEnabled(TowerAt(sites, p.current.value).value.data, g))
    else p
  }

  /** `Update` and `CheckTowerClick`: while the panel is closed, touching an
      occupied site that holds a tower opens the panel on it, with the
      upgrade button set for the gold at that moment. */
  function HandleTouch(p: Panel, sites: Placement.Sites, g: Economy.GameState, touch: Placement.Touch): (r: Panel)
    requires touch.OnSite? ==> touch.index < |sites|
    ensures p.open ==> r == p
    ensures !p.open && touch.OnSite? && IsOccupied(sites[touch.index]) && TowerAt(sites, touch.index).Some? ==>
              r.open && r.current == Some(touch.index)
              && (r.upgradeEnabled <==> UpgradeButtonEnabled(TowerAt(sites, touch.index).value.data, g))
    ensures !(touch.OnSite? && IsOccupied(sites[touch.index]) && TowerAt(sites, touch.index).Some?) ==> r == p
    ensures Addresses(p, sites) ==> Addresses(r, sites)
  {
    if p.open then p
    else
      match touch
      case OnSite(i) =>
        if IsOccupied(sites[i]) && TowerAt(sites, i).Some? then
          UpdatePanelInfo(Panel(true, Some(i), p.upgradeEnabled), sites, g)
        else p
      case _ => p
  }

  /** `CloseUpgradePanel`: nothing if closed; otherwise closes and drops the
      selection. The button keeps its flag. */
  function Close(p: Panel): (r: Panel)
    ensures !p.open ==> r == p
    ensures p.open ==> !r.open && r.current.None?
    ensures r.upgradeEnabled == p.upgradeEnabled
  {
    if !p.open then p else p.(open := false, current := None)
  }

  /** `UpgradeTower`: nothing without a selected tower, at the cap, or without
      the gold; otherwise pays the price, upgrades the tower in place and
      refreshes the panel for the new level and the gold left. */
  function UpgradeTower(p: Panel, sites: Placement.Sites, g: Economy.GameState)
    : (r: (Panel, Placement.Sites, Economy.GameState))
    requires Addresses(p, sites)
    ensures p.current.None? || TowerAt(sites, p.current.value).None? ==> r == (p, sites, g)
    ensures p.current.Some? && TowerAt(sites, p.current.value).Some? ==>
              var t := TowerAt(sites, p.current.value).value;
              && (!UpgradeButtonEnabled(t.data, g) ==> r == (p, sites, g))
              && (UpgradeButtonEnabled(t.data, g) ==>
                    && r.2 == Economy.SpendGold(g, UpgradeCost(t.data))
                    && |r.1| == |sites|
                    && TowerAt(r.1, p.current.value) == Some(TowerCombat.UpgradeTower(t))
                    && r.1[p.current.value].occupied == sites[p.current.value].occupied
                    && (forall j :: 0 <= j < |sites| && j != p.current.value ==> r.1[j] == sites[j])
                    && r.0 == UpdatePanelInfo(p, r.1, r.2))
    ensures Addresses(r.0, r.1) && r.0.open == p.open && r.0.current == p.current
  {
    if p.current.None? || TowerAt(sites, p.current.value).None? then (p, sites, g)
    else
      var i := p.current.value;
      var t := TowerAt(sites, i).value;
      if !CanUpgrade(t.data) then (p, sites, g)
      else
        var cost := UpgradeCost(t.data);
        if !Economy.CanAfford(g, cost) then (p, sites, g)
        else
          var sites' := sites[i := sites[i].(placed := Some(TowerCombat.UpgradeTower(t)))];
          var g' := Economy.SpendGold(g, cost);
          (UpdatePanelInfo(p, sites', g'), sites', g')
  }

  /** A click on the upgrade button. Unity delivers it to `UpgradeTower`
      only while the button is interactable. */
  function PressUpgrade(p: Panel, sites: Placement.Sites, g: Economy.GameState)
    : (r: (Panel, Placement.Sites, Economy.GameState))
    requires Addresses(p, sites)
    ensures !p.upgradeEnabled ==> r == (p, sites, g)
    ensures p.upgradeEnabled ==> r == UpgradeTower(p, sites, g)
  {
    if p.upgradeEnabled then UpgradeTower(p, sites, g) else (p, sites, g)
  }

  /** An upgrade goes through exactly when the button was left enabled by
      the last refresh and the tower and the gold still allow it now: the
      level rises by one and the gold falls by exactly the price. */
  lemma UpgradeExactlyWhenEnabled(p: Panel, sites: Placement.Sites, g: Economy.GameState)
    requires Addresses(p, sites) && p.current.Some? && TowerAt(sites, p.current.value).Some?
    ensures var t := TowerAt(sites, p.current.value).value;
            var r := PressUpgrade(p, sites, g);
            (r.1 != sites <==> p.upgradeEnabled && UpgradeButtonEnabled(t.data, g))
            && (r.1 != sites ==>
                  TowerAt(r.1, p.current.value).value.data.currentLevel == t.data.currentLevel + 1
                  && g.gold - r.2.gold == UpgradeCost(t.data))
  {
  }

  /** The button is refreshed only on opening and after an upgrade: gold
      earned while the panel is open leaves a disabled button disabled, so a
      click upgrades nothing although the player could now pay. */
  lemma StaleUpgradeButton(p: Panel, sites: Placement.Sites, g0: Economy.GameState, g: Economy.GameState, i: nat)
    requires !p.open && i < |sites| && IsOccupied(sites[i]) && TowerAt(sites, i).Some?
    requires CanUpgrade(TowerAt(sites, i).value.data)
    requires g0.gold < UpgradeCost(TowerAt(sites, i).value.data) <= g.gold
    ensures var shown := HandleTouch(p, sites, g0, Placement.OnSite(i));
            && UpgradeButtonEnabled(TowerAt(sites, i).value.data, g)
            && !shown.upgradeEnabled
            && PressUpgrade(shown, sites, g) == (shown, sites, g)
  {
  }

  /** `SellTower`: with a selected site, refunds the sell value of its tower
      (nothing if it has none), frees the site and closes the panel. */
  function SellTower(p: Panel, sites: Placement.Sites, g: Economy.GameState): (r: (Panel, Placement.Sites, Economy.GameState))
    requires Addresses(p, sites)
    ensures p.current.None? ==> r == (p, sites, g)
    ensures p.current.Some? ==>
              && r.2 == Economy.AddGold(g, match TowerAt(sites, p.current.value)
                                           case Some(t) => SellValue(t.data)
                                           case None => 0)
              && |r.1| == |sites|
              && r.1[p.current.value] == Empty()
              && (forall j :: 0 <= j < |sites| && j != p.current.value ==> r.1[j] == sites[j])
              && r.0 == Close(p)
  {
    if p.current.None? then (p, sites, g)
    else
      var i := p.current.value;
      var value := match TowerAt(sites, i) case Some(t) => SellValue(t.data) case None => 0;
      (Close(p), sites[i := RemoveTower(sites[i])], Economy.AddGold(g, value))
  }

  /** Buying a tower and selling it straight back: the site is free again and
      the player is left with the build price less 70% of it. */
  lemma BuyThenSell(bp: Placement.Panel, up: Panel, sites: Placement.Sites, g: Economy.GameState,
                    t: TowerType, prefab: TowerData, i: nat)
    requires i < |sites| && bp.current == Some(i) && Economy.CanAfford(g, Placement.Cost(t))
    requires prefab.towerType == t && prefab.currentLevel == 1
    requires !up.open
    ensures var bought := Placement.PlaceTower(bp, sites, g, t, Some(prefab));
            var shown := HandleTouch(up, bought.1, bought.2, Placement.OnSite(i));
            var sold := SellTower(shown, bought.1, bought.2);
            && !IsOccupied(sold.1[i])
            && sold.2.gold == g.gold - Placement.Cost(t) + RoundToInt(Placement.Cost(t) as real * 0.7)
            && !sold.0.open
  {
  }
}

=== FILE: waves.dfy ===
/** EndlessWaveSpawner: numbered waves of enemy groups that grow harder in
    steps, a call-wave button guarded by three flags, an automatic wave when
    the countdown after a wave runs out, and a gold bonus for calling a wave
    early. The spawning coroutine is split into its synchronous start, which
    runs inside `CallNextWave`, and its finish; the waits in between are not
    modelled. */
module Waves {
  import opened Numeric
  import opened Options
  import Enemies
  import Waypoints
  import Economy

  /** The inspector settings that shape the waves. */
  datatype Config = Config(
    groupsPerWave: int,
    enemiesPerGroupMin: int,
    enemiesPerGroupMax: int,
    wavesPerHealthIncrease: int,
    healthMultiplierPerTier: real,
    wavesPerEnemyIncrease: int,
    extraEnemiesPerIncrease: int,
    enableEarlyWaveBonus: bool,
    minEarlyWaveBonus: int,
    maxEarlyWaveBonus: int,
    autoWaveDelay: real)

  const BaseEnemyHealth: real := 100.0

  function DefaultConfig(): (c: Config)
    ensures Sound(c)
  {
    Config(4, 8, 12, 5, 1.2, 3, 2, true, 10, 30, 10.0)
  }

  /** Settings the difficulty arithmetic is defined for: positive block
      lengths (the divisors), bounds in order, and a positive auto-wave delay,
      under which an earlier call earns a larger share of the bonus. */
  predicate Sound(c: Config)
  {
    && c.wavesPerHealthIncrease > 0 && c.wavesPerEnemyIncrease > 0
    && c.autoWaveDelay > 0.0
    && c.groupsPerWave >= 0
    && c.enemiesPerGroupMin <= c.enemiesPerGroupMax
    && c.minEarlyWaveBonus <= c.maxEarlyWaveBonus
    && c.healthMultiplierPerTier >= 1.0 && c.extraEnemiesPerIncrease >= 0
  }

  // ---------------------------------------------------------------- difficulty

  /** How many health steps wave `wave` has climbed. */
  function DifficultyTier(c: Config, wave: int): (t: nat)
    requires c.wavesPerHealthIncrease > 0 && wave >= 1
    ensures wave <= c.wavesPerHealthIncrease ==> t == 0
  {
    (wave - 1) / c.wavesPerHealthIncrease
  }

  /** The factor on the base health of every enemy of the wave. */
  function HealthMultiplier(c: Config, wave: int): (m: real)
    requires c.wavesPerHealthIncrease > 0 && wave >= 1
    ensures wave <= c.wavesPerHealthIncrease ==> m == 1.0
  {
    Pow(c.healthMultiplierPerTier, DifficultyTier(c, wave))
  }

  /** Integer division by a positive divisor does not decrease. */
  lemma DivMonotone(a: int, b: int, k: int)
    requires 0 <= a <= b && k > 0
    ensures a / k <= b / k
  {
    var qa, qb := a / k, b / k;
    assert k * qa <= a;
    assert b < k * qb + k;
    assert k * (qb + 1 - qa) > 0;
    PositiveFactor(k, qb + 1 - qa);
  }

  /** A product with a positive factor is positive only if the other factor
      is. */
  lemma PositiveFactor(k: int, x: int)
    requires k > 0 && k * x > 0
    ensures x > 0
  {
  }

  /** The health multiplier is the same for every wave of a block of
      `wavesPerHealthIncrease` waves, never falls from one wave to a later
      one, and never goes below one. */
  lemma HealthMultiplierSteps(c: Config, w1: int, w2: int)
    requires Sound(c) && 1 <= w1 <= w2
    ensures (w1 - 1) / c.wavesPerHealthIncrease == (w2 - 1) / c.wavesPerHealthIncrease ==>
              HealthMultiplier(c, w1) == HealthMultiplier(c, w2)
    ensures 1.0 <= HealthMultiplier(c, w1) <= HealthMultiplier(c, w2)
  {
    DivMonotone(w1 - 1, w2 - 1, c.wavesPerHealthIncrease);
    PowMonotone(c.healthMultiplierPerTier, DifficultyTier(c, w1), DifficultyTier(c, w2));
  }

  /** With the default settings waves one to five have full base health and
      wave six a fifth more. */
  lemma DefaultHealthMultiplier()
    ensures HealthMultiplier(DefaultConfig(), 5) == 1.0
    ensures HealthMultiplier(DefaultConfig(), 6) == 1.2
  {
  }

  /** The enemies added to every group of the wave. */
  function ExtraEnemies(c: Config, wave: int): (e: int)
    requires c.wavesPerEnemyIncrease > 0 && wave >= 1
    ensures wave <= c.wavesPerEnemyIncrease ==> e == 0
  {
    ((wave - 1) / c.wavesPerEnemyIncrease) * c.extraEnemiesPerIncrease
  }

  /** The extra enemies never fall from one wave to a later one. */
  lemma ExtraEnemiesMonotone(c: Config, w1: int, w2: int)
    requires Sound(c) && 1 <= w1 <= w2
    ensures 0 <= ExtraEnemies(c, w1) <= ExtraEnemies(c, w2)
  {
    var k := c.wavesPerEnemyIncrease;
    DivMonotone(w1 - 1, w2 - 1, k);
    var q1, q2 := (w1 - 1) / k, (w2 - 1) / k;
    assert q2 * c.extraEnemiesPerIncrease - q1 * c.extraEnemiesPerIncrease == (q2 - q1) * c.extraEnemiesPerIncrease;
  }

  /** The size of one group: a draw from the inclusive per-group range plus
      the wave's extra enemies. */
  function GroupSize(c: Config, wave: int, pick: nat): (n: int)
    requires c.wavesPerEnemyIncrease > 0 && wave >= 1
    ensures c.enemiesPerGroupMin <= c.enemiesPerGroupMax ==>
              c.enemiesPerGroupMin + ExtraEnemies(c, wave) <= n <= c.enemiesPerGroupMax + ExtraEnemies(c, wave)
  {
    RandomRangeInt(c.enemiesPerGroupMin, c.enemiesPerGroupMax + 1, pick) + ExtraEnemies(c, wave)
  }

  /** How many times the spawning loop `for (i = 0; i < n; i++)` runs: a
      negative group size spawns nobody. */
  function Spawned(n: int): (k: nat)
    ensures n >= 0 ==> k == n
    ensures n < 0 ==> k == 0
  {
    if n < 0 then 0 else n
  }

  /** All enemies of a wave, one draw per group; a group whose drawn size is
      negative contributes none. */
  function WaveSize(c: Config, wave: int, picks: seq<nat>): (n: nat)
    requires c.wavesPerEnemyIncrease > 0 && wave >= 1
    ensures picks != [] ==> n >= Spawned(GroupSize(c, wave, picks[0]))
    ensures (forall i :: 0 <= i < |picks| ==> GroupSize(c, wave, picks[i]) <= 0) ==> n == 0
    decreases |picks|
  {
    if picks == [] then 0 else Spawned(GroupSize(c, wave, picks[0])) + WaveSize(c, wave, picks[1..])
  }

  /** A wave of `n` groups has between `n` times the smallest and `n` times
      the largest group size, a negative bound counting as no enemies. */
  lemma {:induction false} WaveSizeBounds(c: Config, wave: int, picks: seq<nat>)
    requires Sound(c) && wave >= 1
    ensures var lo, hi := Spawned(c.enemiesPerGroupMin + ExtraEnemies(c, wave)), Spawned(c.enemiesPerGroupMax + ExtraEnemies(c, wave));
            |picks| * lo <= WaveSize(c, wave, picks) <= |picks| * hi
    decreases |picks|
  {
    if picks != [] {
      WaveSizeBounds(c, wave, picks[1..]);
      var lo, hi := Spawned(c.enemiesPerGroupMin + ExtraEnemies(c, wave)), Spawned(c.enemiesPerGroupMax + ExtraEnemies(c, wave));
      var head, rest := Spawned(GroupSize(c, wave, picks[0])), WaveSize(c, wave, picks[1..]);
      assert lo <= head <= hi;
      AddBounds(|picks| - 1, lo, hi, head, rest);
    }
  }

  lemma AddBounds(m: nat, lo: int, hi: int, x: int, y: int)
    requires lo <= x <= hi && m * lo <= y <= m * hi
    ensures (m + 1) * lo <= x + y <= (m + 1) * hi
  {
    assert (m + 1) * lo == m * lo + lo;
    assert (m + 1) * hi == m * hi + hi;
  }

  /** `SpawnEnemy`: nothing without prefabs or waypoints; otherwise a random
      prefab, given the base health times the multiplier and set walking from
      the first waypoint. A prefab is the maximum health it starts with. */
  function SpawnEnemy(prefabs: seq<real>, path: seq<bool>, multiplier: real, pick: nat): (r: Option<Enemies.EnemyUnit>)
    ensures prefabs == [] || path == [] <==> r.None?
    ensures r.Some? ==>
              && r.value.health == r.value.maxHealth == BaseEnemyHealth * multiplier
              && !r.value.dead && Enemies.Valid(r.value)
              && r.value.follower.index == 0 && Waypoints.IsMoving(r.value.follower)
              && r.value.follower.waypoints == path
  {
    if prefabs == [] || path == [] then None
    else
      var i := RandomRangeInt(0, |prefabs|, pick);
      var u := Enemies.SetMaxHealth(Enemies.Create(prefabs[i]), BaseEnemyHealth * multiplier);
      Some(u.(follower := Waypoints.Initialize(u.follower, path)))
  }

  // ---------------------------------------------------------------- calling waves

  datatype Spawner = Spawner(
    currentWave: int,
    isSpawning: bool,
    canCallWave: bool,
    autoWaveTimer: real,
    isAutoWaveActive: bool)

  /** The spawner before the first wave. */
  function Start(): (s: Spawner)
    ensures s.currentWave == 0 && CanCallWave(s) && !s.isAutoWaveActive
    ensures Inv(s)
  {
    Spawner(0, false, true, 0.0, false)
  }

  /** The three flags move together: a wave can be called exactly while none
      is spawning, the auto-wave countdown only runs between waves, and a
      spawning wave has a number. */
  predicate Inv(s: Spawner)
  {
    && (s.isSpawning <==> !s.canCallWave)
    && (s.isAutoWaveActive ==> !s.isSpawning)
    && s.currentWave >= 0
    && (s.isSpawning ==> s.currentWave >= 1)
  }

  /** The public `CanCallWave`. */
  predicate CanCallWave(s: Spawner)
  {
    s.canCallWave && !s.isSpawning
  }

  /** `timeRemaining / autoWaveDelay`, the share of the countdown still left,
      for a countdown with time left. A zero delay divides a positive float
      by zero, which gives positive infinity, the same as a full share once
      `Lerp` has clamped it. */
  function CountdownLeft(c: Config, s: Spawner): (f: real)
    requires s.autoWaveTimer > 0.0
    ensures c.autoWaveDelay > 0.0 ==> f > 0.0 && f * c.autoWaveDelay == s.autoWaveTimer
    ensures c.autoWaveDelay < 0.0 ==> f < 0.0
    ensures c.autoWaveDelay == 0.0 ==> f == 1.0
  {
    if c.autoWaveDelay == 0.0 then 1.0 else s.autoWaveTimer / c.autoWaveDelay
  }

  /** The bonus for calling now: only for a call by the player, only while
      the auto-wave countdown runs and has time left, and only when bonuses
      are enabled. It interpolates from the minimum to the maximum bonus by
      the fraction of the countdown still left. */
  function EarlyBonus(c: Config, s: Spawner, manualCall: bool): (b: Option<int>)
    ensures b.Some? <==> manualCall && s.isAutoWaveActive && c.enableEarlyWaveBonus && s.autoWaveTimer > 0.0
    ensures b.Some? && c.minEarlyWaveBonus <= c.maxEarlyWaveBonus ==>
              c.minEarlyWaveBonus <= b.value <= c.maxEarlyWaveBonus
  {
    if manualCall && s.isAutoWaveActive && c.enableEarlyWaveBonus && s.autoWaveTimer > 0.0 then
      var x := Lerp(c.minEarlyWaveBonus as real, c.maxEarlyWaveBonus as real, CountdownLeft(c, s));
      if c.minEarlyWaveBonus <= c.maxEarlyWaveBonus then
        RoundToIntWithin(x, c.minEarlyWaveBonus, c.maxEarlyWaveBonus);
        Some(RoundToInt(x))
      else Some(RoundToInt(x))
    else None
  }

  /** Calling a wave earlier, with more of the countdown left, never earns a
      smaller bonus. */
  lemma EarlierCallEarnsMore(c: Config, s: Spawner, sooner: real)
    requires Sound(c) && s.isAutoWaveActive && c.enableEarlyWaveBonus
    requires 0.0 < s.autoWaveTimer <= sooner
    ensures EarlyBonus(c, s, true).value <= EarlyBonus(c, s.(autoWaveTimer := sooner), true).value
  {
    var lo, hi := c.minEarlyWaveBonus as real, c.maxEarlyWaveBonus as real;
    var t := s.(autoWaveTimer := sooner);
    var f, g := CountdownLeft(c, s), CountdownLeft(c, t);
    CountdownLeftMonotone(c, s, sooner);
    LerpMonotone(lo, hi, f, g);
    RoundToIntMonotone(Lerp(lo, hi, f), Lerp(lo, hi, g));
    assert EarlyBonus(c, s, true).value == RoundToInt(Lerp(lo, hi, f));
    assert EarlyBonus(c, t, true).value == RoundToInt(Lerp(lo, hi, g));
  }

  lemma CountdownLeftMonotone(c: Config, s: Spawner, sooner: real)
    requires c.autoWaveDelay > 0.0 && 0.0 < s.autoWaveTimer <= sooner
    ensures CountdownLeft(c, s) <= CountdownLeft(c, s.(autoWaveTimer := sooner))
  {
    ScaleMonotone(1.0 / c.autoWaveDelay, s.autoWaveTimer, sooner);
  }

  /** The coroutine's first steps, run at once by `StartCoroutine`. */
  function BeginSpawn(s: Spawner): (r: Spawner)
    ensures r.isSpawning && !r.canCallWave && !r.isAutoWaveActive
    ensures r.currentWave == s.currentWave && r.autoWaveTimer == s.autoWaveTimer
  {
    s.(isSpawning := true, canCallWave := false, isAutoWaveActive := false)
  }

  /** `CallNextWave`: nothing while a wave spawns or none can be called;
      otherwise pays any early bonus, numbers the next wave, shows it and
      starts spawning it. */
  function CallNextWave(c: Config, s: Spawner, g: Economy.GameState, manualCall: bool): (r: (Spawner, Economy.GameState))
    ensures !CanCallWave(s) ==> r == (s, g)
    ensures CanCallWave(s) ==>
              && r.0.currentWave == s.currentWave + 1
              && r.1.wave == r.0.currentWave
              && r.0.isSpawning && !CanCallWave(r.0) && !r.0.isAutoWaveActive
              && r.1.lives == g.lives && r.1.gameOver == g.gameOver
              && (EarlyBonus(c, s, manualCall).None? ==> r.1.gold == g.gold)
              && (EarlyBonus(c, s, manualCall).Some? ==> r.1.gold == g.gold + EarlyBonus(c, s, manualCall).value)
    ensures Inv(s) ==> Inv(r.0)
  {
    if !s.canCallWave || s.isSpawning then (s, g)
    else
      var paid := match EarlyBonus(c, s, manualCall)
                  case Some(b) => Economy.AddGold(g, b)
                  case None => g;
      var wave := s.currentWave + 1;
      (BeginSpawn(s.(currentWave := wave)), Economy.SetCurrentWave(paid, wave))
  }

  /** The end of the coroutine: calling is possible again and the auto-wave
      countdown restarts from its full delay. */
  function FinishSpawn(c: Config, s: Spawner): (r: Spawner)
    requires s.isSpawning
    ensures CanCallWave(r) && r.isAutoWaveActive && r.autoWaveTimer == c.autoWaveDelay
    ensures r.currentWave == s.currentWave
    ensures Inv(s) ==> Inv(r)
  {
    s.(isSpawning := false, canCallWave := true, isAutoWaveActive := true, autoWaveTimer := c.autoWaveDelay)
  }

  /** `Update`: between waves the countdown runs down by `dt`; at zero or
      below the next wave is called automatically, without a bonus. */
  function Update(c: Config, s: Spawner, g: Economy.GameState, dt: real): (r: (Spawner, Economy.GameState))
    ensures !(s.isAutoWaveActive && !s.isSpawning) ==> r == (s, g)
    ensures s.isAutoWaveActive && !s.isSpawning && s.autoWaveTimer - dt > 0.0 ==>
              r == (s.(autoWaveTimer := s.autoWaveTimer - dt), g)
    ensures s.isAutoWaveActive && !s.isSpawning && s.autoWaveTimer - dt <= 0.0 ==>
              r == CallNextWave(c, s.(autoWaveTimer := s.autoWaveTimer - dt), g, false)
    ensures r.1.gold == g.gold
    ensures r.0.currentWave == s.currentWave || r.0.currentWave == s.currentWave + 1
    ensures Inv(s) ==> Inv(r.0)
  {
    if s.isAutoWaveActive && !s.isSpawning then
      var t := s.autoWaveTimer - dt;
      if t <= 0.0 then CallNextWave(c, s.(autoWaveTimer := t), g, false)
      else (s.(autoWaveTimer := t), g)
    else (s, g)
  }

  /** Without a positive auto-wave delay the countdown starts out already
      run down: calling early earns nothing, and the next frame calls the
      next wave by itself. */
  lemma NoDelayNoBonus(c: Config, s: Spawner, g: Economy.GameState, dt: real)
    requires s.isSpawning && c.autoWaveDelay <= 0.0 && dt >= 0.0
    ensures EarlyBonus(c, FinishSpawn(c, s), true).None?
    ensures Update(c, FinishSpawn(c, s), g, dt).0.currentWave == s.currentWave + 1
    ensures Update(c, FinishSpawn(c, s), g, dt).1.gold == g.gold
  {
  }

  /** While a wave is spawning no other wave can start, whether the player
      presses the button or the countdown runs out. */
  lemma OneWaveAtATime(c: Config, s: Spawner, g: Economy.GameState, manualCall: bool, dt: real)
    requires Inv(s) && s.isSpawning
    ensures CallNextWave(c, s, g, manualCall) == (s, g)
    ensures Update(c, s, g, dt) == (s, g)
  {
  }

  /** The default delay and bonuses: calling at once when a wave has ended
      earns the full 30 gold, and calling with half the countdown left earns
      20. */
  lemma DefaultBonuses(s: Spawner)
    requires s.isAutoWaveActive
    ensures EarlyBonus(DefaultConfig(), s.(autoWaveTimer := 10.0), true) == Some(30)
    ensures EarlyBonus(DefaultConfig(), s.(autoWaveTimer := 5.0), true) == Some(20)
    ensures EarlyBonus(DefaultConfig(), s.(autoWaveTimer := 5.0), false) == None
  {
  }
}

=== FILE: waypoints.dfy ===
/** WaypointFollower: walks an enemy along a path of waypoints and charges one
    life when the end is reached. Geometry is abstracted: a path is the
    sequence of its waypoints, `true` where the waypoint object still exists
    and `false` where the reference is null, and whether the enemy arrived at
    its current waypoint this frame is passed in as `arrived`. */
module Waypoints {
  import opened Numeric
  import Economy

  const MinSpeedModifier: real := 0.1
  const MaxSpeedModifier: real := 2.0

  datatype Follower = Follower(
    waypoints: seq<bool>,
    index: nat,
    moving: bool,
    stunned: bool,
    speedModifier: real)

  /** The component as it is before `Initialize`: no path, not moving, full speed. */
  function Fresh(): (f: Follower)
    ensures !IsMoving(f) && f.speedModifier == 1.0
  {
    Follower([], 0, false, false, 1.0)
  }

  /** Starts the walk from the first waypoint. */
  function Initialize(f: Follower, path: seq<bool>): (r: Follower)
    ensures r.index == 0 && r.moving && r.waypoints == path
    ensures r.stunned == f.stunned && r.speedModifier == f.speedModifier
  {
    f.(waypoints := path, index := 0, moving := true)
  }

  function SetStunned(f: Follower, stunned: bool): (r: Follower)
    ensures r.stunned == stunned
    ensures r.(stunned := f.stunned) == f
  {
    f.(stunned := stunned)
  }

  /** Stores the modifier clamped to [0.1, 2]. */
  function SetSpeedModifier(f: Follower, m: real): (r: Follower)
    ensures MinSpeedModifier <= r.speedModifier <= MaxSpeedModifier
    ensures MinSpeedModifier <= m <= MaxSpeedModifier ==> r.speedModifier == m
    ensures m < MinSpeedModifier ==> r.speedModifier == MinSpeedModifier
    ensures m > MaxSpeedModifier ==> r.speedModifier == MaxSpeedModifier
    ensures r.(speedModifier := f.speedModifier) == f
  {
    f.(speedModifier := Clamp(m, MinSpeedModifier, MaxSpeedModifier))
  }

  function StopMoving(f: Follower): (r: Follower)
    ensures !IsMoving(r)
    ensures r.(moving := f.moving) == f
  {
    f.(moving := false)
  }

  /** Moving means started and not held by a stun or freeze lock. */
  predicate IsMoving(f: Follower)
  {
    f.moving && !f.stunned
  }

  /** Whether `Update` does anything at all this frame. */
  predicate Active(f: Follower)
  {
    f.moving && !f.stunned && |f.waypoints| > 0
  }

  /** One frame of `Update`. Past the last waypoint the enemy reaches the end:
      it stops and one life is lost. A null waypoint is skipped; otherwise the
      index advances when the enemy arrived. */
  function Step(f: Follower, arrived: bool, g: Economy.GameState): (r: (Follower, Economy.GameState))
    ensures !Active(f) ==> r == (f, g)
    ensures r.0.index == f.index || r.0.index == f.index + 1
    ensures r.0.waypoints == f.waypoints && r.0.stunned == f.stunned
    ensures r.0.speedModifier == f.speedModifier
    ensures r.1 == g || (r.1 == Economy.ReduceLives(g, 1) && Active(f) && f.index >= |f.waypoints|)
    ensures r.0.moving != f.moving ==> r.1 == Economy.ReduceLives(g, 1) && !r.0.moving
    ensures Active(f) && f.index >= |f.waypoints| ==> !r.0.moving && r.1 == Economy.ReduceLives(g, 1)
    ensures Active(f) && f.index < |f.waypoints| && (arrived || !f.waypoints[f.index]) ==> r.0.index == f.index + 1
  {
    if !Active(f) then (f, g)
    else if f.index >= |f.waypoints| then ReachedEnd(f, g)
    else if !f.waypoints[f.index] then (f.(index := f.index + 1), g)
    else if arrived then (f.(index := f.index + 1), g)
    else (f, g)
  }

  /** Stops the walk and charges exactly one life. */
  function ReachedEnd(f: Follower, g: Economy.GameState): (r: (Follower, Economy.GameState))
    ensures !r.0.moving
    ensures r.1 == Economy.ReduceLives(g, 1)
  {
    (StopMoving(f), Economy.ReduceLives(g, 1))
  }

  /** A run of frames, one `arrived` observation per frame. */
  function Run(f: Follower, g: Economy.GameState, arrivals: seq<bool>): (Follower, Economy.GameState)
    decreases |arrivals|
  {
    if arrivals == [] then (f, g)
    else
      var s := Step(f, arrivals[0], g);
      Run(s.0, s.1, arrivals[1..])
  }

  /** A follower that has stopped stays where it is and costs nothing more. */
  lemma {:induction false} StoppedStaysStopped(f: Follower, g: Economy.GameState, arrivals: seq<bool>)
    requires !f.moving
    ensures Run(f, g, arrivals) == (f, g)
    decreases |arrivals|
  {
    if arrivals != [] {
      StoppedStaysStopped(f, g, arrivals[1..]);
    }
  }

  /** Whatever happens along the way, one enemy costs the player at most one
      life: the game state after any run is the original one or the original
      one less a single life. */
  lemma {:induction false} AtMostOneLifeLost(f: Follower, g: Economy.GameState, arrivals: seq<bool>)
    ensures Run(f, g, arrivals).1 == g || Run(f, g, arrivals).1 == Economy.ReduceLives(g, 1)
    ensures Run(f, g, arrivals).0.index >= f.index
    decreases |arrivals|
  {
    if arrivals != [] {
      var s := Step(f, arrivals[0], g);
      if s.1 == g {
        AtMostOneLifeLost(s.0, s.1, arrivals[1..]);
      } else {
        StoppedStaysStopped(s.0, s.1, arrivals[1..]);
      }
    }
  }

  /** An unhindered walk that arrives every frame is still walking, at no
      cost, when it has passed its last waypoint. */
  lemma {:induction false} UnhinderedWalkPassesLastWaypoint(f: Follower, g: Economy.GameState, arrivals: seq<bool>)
    requires Active(f) && f.index <= |f.waypoints|
    requires |arrivals| == |f.waypoints| - f.index
    requires forall i :: 0 <= i < |arrivals| ==> arrivals[i]
    ensures Active(Run(f, g, arrivals).0) && Run(f, g, arrivals).0.index == |f.waypoints|
    ensures Run(f, g, arrivals).0.waypoints == f.waypoints
    ensures Run(f, g, arrivals).1 == g
    decreases |arrivals|
  {
    if arrivals != [] {
      var s := Step(f, arrivals[0], g);
      assert s == (f.(index := f.index + 1), g);
      UnhinderedWalkPassesLastWaypoint(s.0, s.1, arrivals[1..]);
    }
  }

  /** An unhindered walk along a path of `n` waypoints, arriving every frame,
      reaches the end after exactly `n + 1` frames and costs exactly one life:
      it is still walking, at no cost, after the first `n`. */
  lemma {:induction false} UnhinderedWalkReachesEnd(f: Follower, g: Economy.GameState, arrivals: seq<bool>)
    requires Active(f) && f.index <= |f.waypoints|
    requires |arrivals| == |f.waypoints| - f.index + 1
    requires forall i :: 0 <= i < |arrivals| ==> arrivals[i]
    ensures !Run(f, g, arrivals).0.moving
    ensures Run(f, g, arrivals).1 == Economy.ReduceLives(g, 1)
    ensures Run(f, g, arrivals[..|arrivals| - 1]).0.moving && Run(f, g, arrivals[..|arrivals| - 1]).1 == g
    decreases |arrivals|
  {
    UnhinderedWalkPassesLastWaypoint(f, g, arrivals[..|arrivals| - 1]);
    var s := Step(f, arrivals[0], g);
    if f.index == |f.waypoints| {
      StoppedStaysStopped(s.0, s.1, arrivals[1..]);
    } else {
      assert s == (f.(index := f.index + 1), g);
      UnhinderedWalkReachesEnd(s.0, s.1, arrivals[1..]);
    }
  }
}
